=== FILE: README.md ===
# sollytch-chain, modelled in Dafny

The system records rapid field tests (lateral-flow assays for contaminants) on a
Hyperledger Fabric ledger. JavaScript clients read a test record, encode 21 of its
features as a CSV row (`preprocessForPrediction`), and submit the record's JSON and
that row to the `sollytch-chain` chaincode. The chaincode labels the test with three
ID3 decision-tree models kept on the same ledger and stores it. It also versions the
models and the tests. A second chaincode, `sollytch-image`, keeps a hash for each
test image. The clients decode ledger responses before parsing them as JSON. That
step turns a response that arrives as a decimal byte list (`"123,34,..."`) back into
text.

The model has one module per part of the system, all pure functions over immutable
values:

- `Features` (features.dfy) models the feature encoder. It appears almost unchanged
  in client/resources/standalone_client.js, client/teste.js and client/clientbkp.js.
  - A JavaScript record is a `map<string, Value>`.
  - An absent key is `undefined`.
  - Each encoder step is its own function: `EncodeControlLine`,
    `EncodeControleInterno`, `FillNulls` and `FillBlurScore`.
  - `ExpectedCell` is an independent per-column reference definition. Lemmas tie the
    emitted row to it.
- `ResponseDecoder` (response.dfy) models the response decoder and the `query` /
  `queryTest` functions of the `sollytch-chain` clients.
  - The pattern `^\d+(,\d+)*$` is a predicate.
  - A left-to-right matcher method is proved equal to it.
  - `Reinterpret` is the trim, split, `parseInt`, `Buffer` and re-decode step.
- `Chain` (chain.dfy) models the `sollytch-chain` chaincode.
  - The world state is a map from key to stored document.
  - `StoreModel`, `StoreTest`, `UpdateTest` and `QueryTest` are state transitions
    with frame conditions.
  - Also modelled: the CSV row parser `parseCSVToTestRecord`, the CSV text built for
    prediction, `NullFloat64`, `incrementVersion`, and the contract API's dispatch
    by function name and argument count.
- `ImageLedger` (image.dfy) models the `sollytch-image` chaincode over a map from key
  to stored bytes, with the contract API's dispatch of its four functions. It also
  models the two client readers of `GetImage`.
- `Pipeline` (pipeline.dfy) covers what the clients submit and one cross-component
  fact: the chaincode's CSV row parser `parseCSVToTestRecord` would read the encoder's
  row back column by column. No transaction calls that parser: StoreTest stores the
  measurements from the client's JSON and hands the row only to prediction.
- Support modules:
  - `Text`: split, join, decimal digits and JavaScript `trim`.
  - `Utf8`: bytes and a UTF-8 codec.
  - `JsonString`: Go's JSON string escaping and its parser.
  - `Wrappers`: `Option` and `Result`.

Some collaborators are parameters of the model:

- the gateway's evaluate call;
- in the response decoder:
  - the `toString('utf8')` call on the value the gateway returns. The gateway returns
    a Uint8Array, which renders as its decimal bytes joined by commas (`RenderByteList`);
  - Buffer's UTF-8 decoder, applied to the bytes of a byte list;
  - `JSON.parse`;
- json.Unmarshal of a client's test JSON;
- model loading (base64, temporary file, ID3) and prediction;
- `strconv.ParseFloat`;
- the transaction timestamp, a string.

The encoder joins the 21 cells with commas, so a value that itself contains a comma
adds fields to the row. `Features.PreprocessFieldCount` states the exact condition,
and `Features.CommaInValueBreaksShape` gives an instance.

## Model

| member | source | states |
|---|---|---|
| Features.Preprocess | client/resources/standalone_client.js:68-136 | the encoder itself; its row is characterised by `Features.RowMatchesReference`, `Features.PreprocessFieldCount` and `Features.PreprocessSplitsIntoColumns` |
| Features.Normalize | client/resources/standalone_client.js:82-106 | the four encoder steps in order; what each column holds afterwards is stated by the `Features.Normalized*` lemmas |
| Features.EncodeControlLine | client/resources/standalone_client.js:84-87 | a boolean `control_line_ok` becomes 1 (true) or 0 (false); a non-boolean or absent value and every other entry are left as they were |
| Features.EncodeControleInterno | client/resources/standalone_client.js:47-51 | the internal-control code is 2 exactly for "ok", 1 exactly for "fail" and 0 for every other value (including "invalid", a missing value and null), with no error; other entries are unchanged |
| Features.FillNulls | client/resources/standalone_client.js:97-102 | after the fill none of the 18 listed features is null or undefined; a null or missing one becomes 0; a present non-null value (0 included) and every unlisted entry are unchanged |
| Features.FillBlurScore | client/resources/standalone_client.js:104-106 | a missing or null `image_blur_score` becomes 0; a present value is unchanged; nothing else changes |
| Features.NormalizedCoordinate | client/resources/standalone_client.js:108-110 | `lat` and `lon` are never filled: after all encoder steps they are exactly what the input held |
| Features.MissingCoordinatesAreEmpty | client/resources/standalone_client.js:108-110 | an absent `lat` or `lon` serialises as an empty cell |
| Features.NormalizedNumeric | client/resources/standalone_client.js:97-102 | after all encoder steps a numeric feature is 0 if it was null or undefined and its own value otherwise |
| Features.NormalizedControlLine | client/resources/standalone_client.js:84-102 | the `control_line_ok` cell is "1"/"0" for a boolean, "0" when null or undefined, and the value's own text otherwise |
| Features.NormalizedControleInterno | client/resources/standalone_client.js:89-95 | after all encoder steps the internal-control entry is the encoded label code |
| Features.CellMatchesReference | client/resources/standalone_client.js:108-130 | each of the 21 cells of the emitted row equals the reference definition for its column kind (coordinate, numeric, blur score, control line, internal control) |
| Features.RowMatchesReference | client/teste.js:114-136 | the whole row agrees with the reference cell by cell, in the fixed column order |
| Features.PreprocessFieldCount | client/clientbkp.js:98-120 | the emitted text splits into exactly 21 fields if and only if no cell contains a comma |
| Features.PreprocessSplitsIntoColumns | client/resources/standalone_client.js:108-130 | with comma-free cells the emitted text splits back into the 21 reference cells, column by column |
| Features.CommaFreeCells | client/teste.js:65-142 | a record none of whose values contains a comma yields comma-free cells |
| Features.CommaInValueBreaksShape | client/resources/standalone_client.js:108-130 | a record with `lat` = "1,5" does not yield 21 fields |
| Features.NumberCellText | client/resources/standalone_client.js:97-130 | the cell of a number column is the number's own text; a missing or null coordinate is the empty cell and any other missing or null number is "0" |
| Features.CoordinateColumns | client/resources/standalone_client.js:71-80 | the first two columns are `lat` and `lon`, and neither is among the filled features |
| Features.NumericColumns | client/resources/standalone_client.js:71-77 | columns 2-14 and 16-18 are the listed numeric features in list order |
| ResponseDecoder.MatchesByteList | client/resources/standalone_client.js:245 | the left-to-right test of `^\d+(,\d+)*$` returns true exactly when the text is one or more digit groups separated by single commas |
| ResponseDecoder.ByteListGrammar | client/resources/client.js:120 | the pattern holds exactly when the text is the comma-join of one or more non-empty digit groups |
| ResponseDecoder.PrefixShapeMonotone | client/resources/client.js:120 | every prefix of a text the pattern has not rejected is also unrejected |
| ResponseDecoder.ByteListBytes | client/resources/client.js:121 | a byte list yields one byte per comma-separated token, in order, each the token's decimal value modulo 256 as `Buffer.from` stores it |
| ResponseDecoder.Reinterpret | client/resources/standalone_client.js:245-248 | text whose trim is not a byte list reaches JSON.parse unchanged |
| ResponseDecoder.ReinterpretRecoversDump | client/resources/client.js:120-122 | round trip: the decimal dump of any non-empty byte array is recognised, its tokens give back exactly those bytes, and the decoder re-decodes them |
| ResponseDecoder.SurroundingSpaceIgnored | client/resources/client.js:120-122 | white space around a byte list does not change the decoding |
| ResponseDecoder.JsonTextUntouched | client/clientbkp.js:185-190 | a text with a non-space character other than digits and commas (any JSON object, array, string or literal) is parsed as it arrived |
| ResponseDecoder.BareIntegerIsReinterpreted | client/clientbkp.js:185-190 | a bare integer document such as `65` is itself a byte list and is decoded again, from the byte 65, before JSON.parse sees it |
| ResponseDecoder.PartialDumpIsReinterpreted | client/resources/client.js:120-122 | "123,34" is re-decoded from the two bytes 123 and 34 |
| ResponseDecoder.DecodeResponse | client/clientbkp.js:183-190 | one response decodes successfully exactly when JSON.parse accepts the reinterpretation of the response's rendered text, and a parse failure is reported |
| ResponseDecoder.ArrayResponseDecodes | client/resources/standalone_client.js:243-250 | with the Uint8Array rendering, every non-empty response is parsed as the UTF-8 text of its bytes, success and failure alike |
| ResponseDecoder.EmptyArrayResponse | client/resources/standalone_client.js:243-250 | an empty response renders as the empty text, which is not a byte list and goes to JSON.parse as it is |
| ResponseDecoder.QueryCall | client/resources/client.js:113-117 | `GetAllTests` is evaluated with no arguments and `QueryTest` with the test id; any other name evaluates nothing |
| ResponseDecoder.Query | client/resources/client.js:111-127 | an unknown name, an evaluate failure and a parse failure all reach the caller uncaught; otherwise the result is the decoded response |
| ResponseDecoder.QueryTestCaught | client/resources/standalone_client.js:238-256 | `queryTest` returns the parsed record when every step succeeds and undefined (all errors caught) otherwise |
| ResponseDecoder.QueryTestReadsStoredText | client/resources/standalone_client.js:238-256 | with the Uint8Array rendering, `queryTest` answers JSON.parse of the UTF-8 text of the non-empty bytes the ledger returned |
| Chain.DecodeNullFloat | sollytch-chain/main.go:20-31 | the literal `null` decodes to 0; any other text decodes as a JSON number or fails |
| Chain.IncrementVersion | sollytch-chain/main.go:91-96 | no existing record gives version 1; an existing one gives its version + 1 (no transaction calls `incrementVersion`) |
| Chain.StoreModel | sollytch-chain/main.go:98-147 | refuses an empty key or data and any key outside the three model keys (leaving state unchanged); otherwise writes only under the model key, at version 1 when absent and previous version + 1 when present |
| Chain.StoreModelFollowsIncrementVersion | sollytch-chain/main.go:115-124 | the version StoreModel writes is the one `incrementVersion` gives for the stored document |
| Chain.AsTestRecord | sollytch-chain/main.go:40-85 | a stored model read as a test record keeps only the model's version; a stored test reads back as itself |
| Chain.AsModel | sollytch-chain/main.go:33-38 | a stored test read as a model keeps only its version and has empty model data |
| Chain.PutState | sollytch-chain/main.go:336 | a write fails exactly for the empty key and otherwise changes only that key |
| Chain.HeaderMatchesClientColumns | sollytch-chain/main.go:196-202 | the chaincode's CSV header names the same 21 columns, in the same order, as the clients' row |
| Chain.PredictionCsv | sollytch-chain/main.go:205-207 | the CSV text built for one prediction; its shape is stated by `Chain.PredictionCsvShape` |
| Chain.PredictionCsvShape | sollytch-chain/main.go:205-207 | the prediction CSV is two lines: the header plus the target column, and the row's fields plus "?" |
| Chain.Atoi | sollytch-chain/main.go:238-241 | text that is not an optionally signed digit string reads as 0, and every result lies in the 64-bit range |
| Chain.AtoiRoundTrip | sollytch-chain/main.go:238-241 | Atoi reads back the decimal text of every 64-bit integer, negative ones included |
| Chain.ToBool | sollytch-chain/main.go:229-231 | the boolean cell is true exactly for "1" and for "true" in any letter case |
| Chain.ToFloat | sollytch-chain/main.go:233-236 | a number the float parser rejects reads as 0 |
| Chain.ParseCsvRow | sollytch-chain/main.go:222-266 | `parseCSVToTestRecord` (which no transaction calls) succeeds exactly when the row has 21 comma-separated fields, otherwise reporting the count; each of the 18 real fields is its own column parsed as a float (0 when it does not parse), cell 2 is read by Atoi, cell 19 as the boolean and cell 20 verbatim |
| Chain.LoadModel | sollytch-chain/main.go:149-183 | succeeds exactly when the key is stored and its model data loads, and then answers the loaded model; a missing key and unloadable data are distinct errors |
| Chain.Predict | sollytch-chain/main.go:205-220 | the prediction is what the model gives the CSV built from the target and the row |
| Chain.StoreTest | sollytch-chain/main.go:268-337 | succeeds exactly when the key is fresh and non-empty, the JSON decodes and each of the three stored models loads and predicts the row; fails with TestExists or BadJson in those cases; on success adds only the new key, holding the decoded record with test id = key, version 0 and created = last updated = transaction time |
| Chain.StoreTestLabels | sollytch-chain/main.go:284-315 | each stored label is the prediction of the corresponding stored model for the submitted row |
| Chain.StoreTestSucceeds | sollytch-chain/main.go:268-337 | for a fresh non-empty key, decodable JSON and three models that load and predict, StoreTest succeeds and QueryTest then answers the decoded record under that key, labelled by the three predictions, at version 0, created and last updated at the transaction time |
| Chain.StoreTestNeedsModels | sollytch-chain/main.go:284-297 | without all three models stored no test can be stored |
| Chain.UpdateTest | sollytch-chain/main.go:339-376 | succeeds exactly when the key is stored and non-empty and the JSON decodes; fails with TestNotFound or BadJson otherwise; on success rewrites only that key, with test id = key, version = stored version + 1 and last update = transaction time, every other field from the new JSON |
| Chain.UpdateTakesCreationTimeFromClient | sollytch-chain/main.go:353-368 | the creation time and all three labels after an update are the ones in the client's JSON, not the stored ones |
| Chain.QueryTest | sollytch-chain/main.go:378-393 | fails exactly when the key is absent; a stored test reads back as itself |
| Chain.StoreThenQuery | sollytch-chain/main.go:327-336 | after a successful store the key reads back at version 0 with the transaction time as creation time, and every earlier key reads back as before |
| Chain.UpdateTestSucceeds | sollytch-chain/main.go:339-376 | for a stored non-empty key and decodable JSON, UpdateTest succeeds and QueryTest then answers the decoded record under that key, one version past the stored document, last updated at the transaction time |
| Chain.StoreTestOnce | sollytch-chain/main.go:273-275 | a key stored once cannot be stored again |
| Chain.UpdateThenQuery | sollytch-chain/main.go:363-375 | each update raises the version read back by exactly one, and other keys read back as before |
| Chain.UpdateTestOverwritesModel | sollytch-chain/main.go:339-376 | UpdateTest on any of the three model keys replaces the model with a test record; when the model loader rejects empty model data, every later StoreTest fails |
| Chain.QueryTestOnModel | sollytch-chain/main.go:387-392 | QueryTest on a model key answers an otherwise empty record carrying the model's version |
| Chain.Submit | sollytch-chain/main.go:268 | an unknown function or a wrong argument count is refused before the function runs; otherwise the named transaction runs on the arguments in order |
| ImageLedger.StoreImage | sollytch-image/main.go:22-49 | refuses an empty key, an empty hash and an existing key (state unchanged); otherwise adds exactly the one key, whose bytes decode to {key, hashData} |
| ImageLedger.GetImage | sollytch-image/main.go:51-66 | refuses an empty key and a missing key; otherwise returns the stored bytes unchanged |
| ImageLedger.GetImageAsset | sollytch-image/main.go:68-81 | the asset is what `GetImage` returns decoded as JSON; GetImage's errors pass through |
| ImageLedger.ImageExists | sollytch-image/main.go:84-90 | true exactly when something is stored under the key |
| ImageLedger.SubmitImage | sollytch-image/main.go:22-91 | the four exported methods are its only functions: an unknown name or a wrong argument count is refused; StoreImage runs as modelled; the readers succeed exactly when the read does and leave the ledger unchanged |
| ImageLedger.ChainFunctionsUnknown | sollytch-image/main.go:22-91 | StoreTest and QueryTest are refused as unknown functions, whatever the arguments |
| ImageLedger.Marshal | sollytch-image/main.go:38-43 | json.Marshal of an asset; `ImageLedger.MarshalRoundTrip` states that Unmarshal inverts it |
| ImageLedger.Unmarshal | sollytch-image/main.go:75-78 | json.Unmarshal into an asset; see `ImageLedger.MarshalRoundTrip` |
| ImageLedger.MarshalRoundTrip | sollytch-image/main.go:43-48 | json.Unmarshal reads back every asset json.Marshal writes |
| ImageLedger.StoreThenGetAsset | sollytch-image/main.go:68-81 | after a successful store the key exists and reads back {key, hashData}; other keys read back as before |
| ImageLedger.StoreImageOnce | sollytch-image/main.go:30-36 | a key stored once cannot be stored again |
| ImageLedger.StoreImagePreservesWellFormed | sollytch-image/main.go:38-48 | every stored value decodes to an asset naming its own key with a non-empty hash, and storing keeps it so |
| ImageLedger.WellFormedAssetsReadBack | sollytch-image/main.go:68-81 | in such a ledger every stored key reads back an asset under that key |
| ImageLedger.TesteGetImage | client/teste.js:210-229 | teste.js `getImage` as written; `ImageLedger.TesteGetImageNeverReturnsHash` and `ImageLedger.TesteGetImageIsUndefined` state what it answers |
| ImageLedger.TesteGetImageNeverReturnsHash | client/teste.js:210-229 | on whatever a ledger written by StoreImage holds under a key, teste.js `getImage` answers undefined or null, never a hash |
| ImageLedger.TesteGetImageIsUndefined | client/teste.js:214-223 | for a stored image with ASCII key and hash the byte-per-character text parses, and the result is still undefined |
| ImageLedger.QueryImage | client/resources/standalone_client.js:188-210 | `queryImage` returns a string only when the bytes decode to an asset, and then it is that asset's non-empty hash |
| ImageLedger.QueryImageReturnsHash | client/resources/standalone_client.js:188-210 | for every stored image `queryImage` returns the stored hash |
| Utf8.DecodeEncode | client/resources/standalone_client.js:196 | UTF-8 decoding of the UTF-8 encoding of a text gives the text back |
| Utf8.Latin1OfEncode | client/teste.js:214-217 | reading UTF-8 bytes one byte per character gives the text back exactly when the text is ASCII |
| JsonString.ParseQuote | sollytch-image/main.go:43 | a string literal as Go's encoder writes it parses back to the string, leaving what follows it |
| Pipeline.StoreTestSubmission | client/resources/standalone_client.js:168-180 | the three arguments the standalone client submits; see `Pipeline.StoreTestSubmissionReachesStoreTest` |
| Pipeline.ClientJsInvoke | client/resources/client.js:88-91 | the two arguments client.js submits; see `Pipeline.ClientJsInvokeRejected` |
| Pipeline.StoreTestSubmissionReachesStoreTest | client/resources/standalone_client.js:168-180 | the three-argument submission reaches StoreTest with the id as key, the JSON as record and the encoded row as prediction input |
| Pipeline.ClientJsInvokeRejected | client/resources/client.js:88-91 | the two-argument submission of client.js is refused for its argument count whatever the ledger holds |
| Pipeline.TesteCallsRefused | client/teste.js:186-193 | teste.js submits the same three-argument StoreTest, and evaluates QueryTest, on the `sollytch-image` contract, which refuses both as unknown functions |
| Pipeline.GetAllTestsIsUnknown | client/resources/client.js:113-114 | `GetAllTests` names no function of the chaincode |
| Pipeline.EncodedRowParses | sollytch-chain/main.go:222-266 | `parseCSVToTestRecord`, were it called, would accept every row the encoder emits for a comma-free record and read each column's reference cell back: every real field and the expiry from their own cells, the internal-control cell as one of "0", "1", "2" (matching "ok" and "fail"), and the control-line flag as the input boolean, false when absent or null |
| Pipeline.EncodedNumbersReadBack | sollytch-chain/main.go:243-262 | in that reading, a number the record holds is parsed from its own text; a missing or null coordinate is parsed from the empty cell, any other missing or null number from "0", and a missing expiry reads as 0 |
| Text.SplitJoin | sollytch-chain/main.go:223 | splitting a join of separator-free fields gives the fields back |
| Text.JoinSplit | client/resources/client.js:121 | joining the split of a text gives the text back |
| Text.TrimPadded | client/resources/client.js:120 | `trim` removes exactly the surrounding white space |

## Left out

- Gateway, identity and TLS set-up, the HTTP server and the command-line prompts are I/O only.
- client/client_standalone.js is I/O only and is not part of this model.
- The chaincode never parses the prediction row: `parseCSVToTestRecord` and `incrementVersion` have no caller. They are modelled as functions and proved about, but no transaction uses them.
- JSON arrays and objects as field values are not modelled: `Features.Value` holds null, booleans, numbers and strings only. For an array or object the encoder would behave differently: `["ok"]` is `in` the encoder table through its property key "ok", and `join` writes an object as "[object Object]".
- The ID3 decision trees are parameters of `Chain.Oracles`: model loading (base64 decoding, the temporary file, `Load`) and prediction, including the dataset loader that reads the prediction CSV.
- SHA-512 image hashing and the signer are cryptography, not logic of the system.
- Transaction timestamps and their RFC 3339 formatting are an opaque string.
- `GetState` failures (ledger read errors) are not modelled. Every read succeeds.
- JavaScript number formatting is not modelled: a number is held as the text `Array.join` writes for it.
- `strconv.ParseFloat` is a parameter. Go's float64 is a `real`, so rounding and ±Inf are not modelled.
- `parseInt` is exact: rounding of tokens beyond 2^53 is not modelled. `Buffer.from` reduces each value modulo 256 as it does.
- `Chain.Atoi`: a digit string long enough to overflow and then followed by a non-digit reads as the clamped value in Go. The model reads it as 0.
- Go's 64-bit `int` version counters are unbounded integers. Wrap-around after 2^63 - 1 updates is not modelled.
- The JavaScript `in` operator uses the property key of the value. Prototype properties such as "toString" are not modelled as present in the encoder table.
- ResponseDecoder takes the response's text rendering, Buffer's UTF-8 decoder and `JSON.parse` as parameters, so its contracts hold for any of them. The Uint8Array rendering is modelled (`RenderByteList`); the decoder and the parser are not.
- `ImageLedger.QueryImage` treats malformed UTF-8 in a response as a parse failure. Buffer's replacement characters are not modelled. Only the chaincode's own well-formed UTF-8 ever reaches it.
- `ImageLedger.ParseAssetJson` reads only the exact JSON layout json.Marshal writes. Other layouts json.Unmarshal or JSON.parse would accept (white space, reordered or extra fields) never occur in the ledger.
- \u escapes naming UTF-16 surrogates are not modelled. The encoder never writes them.
- Invalid UTF-8 inside Go strings is not modelled: texts are sequences of Unicode scalar values.
- `JsonString.Escape` writes \b and \f as short escapes, as current Go releases do. Go releases before 1.22 wrote \u0008 and \u000c.
- `Chain.StoreTest` takes the client's JSON decoding as a parameter. How each field of the test JSON is decoded is not modelled, beyond `NullFloat64`, which `Chain.DecodeNullFloat` models.
- The JSON text the chaincode writes for tests and models is abstracted as the stored document itself. Reading a document as the other struct shares only the "version" field.

## Findings

| source | as written | input that shows it | evidently intended | confidence | as-written member | corrected member |
|---|---|---|---|---|---|---|
| client/teste.js:223 | `getImage` returns `result.HashData`, but the chaincode stores the hash under the JSON name `hashData` | any stored image, e.g. key "img1" with hash "ab12": `getImage("img1")` answers undefined | read `result.hashData`, as `queryImage` in client/resources/standalone_client.js does | not executed | ImageLedger.TesteGetImageIsUndefined | ImageLedger.QueryImageReturnsHash |
| client/teste.js:16 | the contract is taken from the `sollytch-image` chaincode, yet `invoke` submits StoreTest (line 192) and `query` evaluates QueryTest (line 235), which only `sollytch-chain` defines | `invoke` of any test, e.g. id "t1": the image chaincode refuses StoreTest as an unknown function and no test is stored; `query("t1")` is refused the same way | send the test calls to a `sollytch-chain` contract, as client/resources/standalone_client.js:292-293 does | not executed | Pipeline.TesteCallsRefused | Pipeline.StoreTestSubmissionReachesStoreTest |
| client/resources/client.js:89 | `invoke` submits `StoreTest` with two arguments (id, JSON), but the chaincode's StoreTest takes three (id, JSON, prediction row) | `invoke("{}", "t1")`: the contract API refuses the call for its argument count | submit the encoded row as the third argument, as the other clients do | not executed | Pipeline.ClientJsInvokeRejected | Pipeline.StoreTestSubmissionReachesStoreTest |

=== FILE: chain.dfy ===
/** The `sollytch-chain` chaincode (sollytch-chain/main.go): a key-value ledger of
    test records and of the three decision-tree models that label them. Each
    transaction is a function from the world state to a new world state or an error;
    an error leaves the ledger as it was, because a failed transaction writes nothing. */
module Chain {
  import opened Wrappers
  import opened Text
  import Features

  /** The 21 prediction features of a test record, in CSV column order. Go's float64
      is modelled as `real`. */
  datatype Measurements = Measurements(
    lat: real,
    lon: real,
    expiryDaysLeft: int,
    distanceMm: real,
    timeToMigrateS: real,
    sampleVolumeUl: real,
    samplePh: real,
    sampleTurbidityNtu: real,
    sampleTempC: real,
    ambientTC: real,
    ambientRhPct: real,
    lightingLux: real,
    tiltDeg: real,
    preincubationTimeS: real,
    timeSinceSamplingMin: real,
    imageBlurScore: real,
    tempoTransporteHoras: real,
    estimatedConcentrationPpb: real,
    incertezaEstimativaPpb: real,
    controlLineOk: bool,
    controleInternoResult: string)

  /** A stored test. The chaincode only copies the descriptive fields (timestamp,
      operator, lots, storage and transport notes, ...), so they are kept by JSON name
      as their JSON text. */
  datatype TestRecord = TestRecord(
    version: int,
    lastUpdatedAt: string,
    createdAt: string,
    testId: string,
    measurements: Measurements,
    descriptive: map<string, string>,
    acaoRecomendada: string,
    resultClass: string,
    qcStatus: string)

  /** A stored model: its version, update time, key and base64 serialisation. */
  datatype ModelBytes = ModelBytes(version: int, updatedAt: string, modelKey: string, modelData: string)

  /** What the chaincode writes under a key: the JSON of a test record or of a model. */
  datatype Doc = TestDoc(record: TestRecord) | ModelDoc(model: ModelBytes)

  /** The chaincode's world state. */
  type WorldState = map<string, Doc>

  datatype ChainError =
    | EmptyModelArgument
    | InvalidModelKey
    | EmptyKey
    | TestExists
    | TestNotFound
    | BadJson
    | ModelMissing(key: string)
    | ModelUnloadable(key: string)
    | PredictionFailed(target: string)
    | CsvFieldCount(found: nat)
    | UnknownFunction(name: string)
    | WrongArgumentCount(expected: nat, got: nat)

  const ZeroMeasurements := Measurements(0.0, 0.0, 0, 0.0, 0.0, 0.0, 0.0, 0.0, 0.0, 0.0, 0.0,
                                         0.0, 0.0, 0.0, 0.0, 0.0, 0.0, 0.0, 0.0, false, "")

  /** Go's zero TestRecord: what json.Unmarshal fills in for fields the JSON lacks. */
  const ZeroRecord := TestRecord(0, "", "", "", ZeroMeasurements, map[], "", "", "")

  /** The keys the three models are stored under; they share the key space of tests. */
  const ModelKeys: set<string> := {"acao_recomendada", "result_class", "qc_status"}

  /** Both stored shapes carry the JSON field "version", so decoding either document
      as either struct reads the same version. */
  function VersionOf(doc: Doc): int
  {
    match doc
    case TestDoc(r) => r.version
    case ModelDoc(m) => m.version
  }

  /** json.Unmarshal of a stored document into a TestRecord: a model document shares
      only its "version" field with a test record. */
  function AsTestRecord(doc: Doc): (r: TestRecord)
    ensures r.version == VersionOf(doc)
    ensures doc.TestDoc? ==> r == doc.record
    ensures doc.ModelDoc? ==> r == ZeroRecord.(version := doc.model.version)
  {
    match doc
    case TestDoc(r) => r
    case ModelDoc(m) => ZeroRecord.(version := m.version)
  }

  /** json.Unmarshal of a stored document into ModelBytes: a test record shares only
      its "version" field with a model. */
  function AsModel(doc: Doc): (m: ModelBytes)
    ensures m.version == VersionOf(doc)
    ensures doc.ModelDoc? ==> m == doc.model
    ensures doc.TestDoc? ==> m.modelData == ""
  {
    match doc
    case ModelDoc(m) => m
    case TestDoc(r) => ModelBytes(r.version, "", "", "")
  }

  /** The ledger's PutState, which refuses the empty key. */
  function PutState(st: WorldState, key: string, doc: Doc): (r: Result<WorldState, ChainError>)
    ensures key == "" <==> r == Failure(EmptyKey)
    ensures r.Success? ==> r.value.Keys == st.Keys + {key} && r.value[key] == doc
    ensures r.Success? ==> forall k :: k in st && k != key ==> r.value[k] == st[k]
  {
    if key == "" then Failure(EmptyKey) else Success(st[key := doc])
  }

  /** `NullFloat64.UnmarshalJSON`: the literal `null` decodes to 0; any other text is
      decoded as a JSON number by `parseNumber` (json.Unmarshal into a float64), whose
      failure is the error. */
  function DecodeNullFloat(text: string, parseNumber: string -> Option<real>): (r: Result<real, ChainError>)
    ensures text == "null" ==> r == Success(0.0)
    ensures text != "null" ==> (r.Success? <==> parseNumber(text).Some?)
    ensures text != "null" && r.Success? ==> r.value == parseNumber(text).value
  {
    if text == "null" then Success(0.0)
    else match parseNumber(text)
      case Some(f) => Success(f)
      case None => Failure(BadJson)
  }

  /** `incrementVersion`: 1 for a record that does not exist yet, the next version
      otherwise. */
  function IncrementVersion(existing: Option<TestRecord>): (v: int)
    ensures existing.None? ==> v == 1
    ensures existing.Some? ==> v == existing.value.version + 1
  {
    match existing
    case None => 1
    case Some(r) => r.version + 1
  }

  /** `StoreModel`: stores a model under one of the three model keys, at version 1 the
      first time and one past the stored version afterwards. */
  function StoreModel(st: WorldState, modelKey: string, modelData: string, txTime: string): (r: Result<WorldState, ChainError>)
    ensures modelKey == "" || modelData == "" ==> r == Failure(EmptyModelArgument)
    ensures modelKey != "" && modelData != "" && modelKey !in ModelKeys ==> r == Failure(InvalidModelKey)
    ensures r.Success? <==> modelKey != "" && modelData != "" && modelKey in ModelKeys
    ensures r.Success? ==> r.value.Keys == st.Keys + {modelKey}
    ensures r.Success? ==> forall k :: k in st && k != modelKey ==> r.value[k] == st[k]
    ensures r.Success? ==> r.value[modelKey].ModelDoc?
    ensures r.Success? ==> r.value[modelKey].model.modelKey == modelKey
    ensures r.Success? ==> r.value[modelKey].model.modelData == modelData
    ensures r.Success? ==> r.value[modelKey].model.updatedAt == txTime
    ensures r.Success? && modelKey !in st ==> r.value[modelKey].model.version == 1
    ensures r.Success? && modelKey in st ==> r.value[modelKey].model.version == VersionOf(st[modelKey]) + 1
  {
    if modelKey == "" || modelData == "" then Failure(EmptyModelArgument)
    else if modelKey !in ModelKeys then Failure(InvalidModelKey)
    else
      var version := if modelKey in st then AsModel(st[modelKey]).version + 1 else 1;
      PutState(st, modelKey, ModelDoc(ModelBytes(version, txTime, modelKey, modelData)))
  }

  /** The version StoreModel writes is the one `incrementVersion` computes from the
      stored document read as a test record. */
  lemma StoreModelFollowsIncrementVersion(st: WorldState, modelKey: string, modelData: string, txTime: string)
    requires StoreModel(st, modelKey, modelData, txTime).Success?
    ensures StoreModel(st, modelKey, modelData, txTime).value[modelKey].model.version ==
      IncrementVersion(if modelKey in st then Some(AsTestRecord(st[modelKey])) else None)
  {
  }

  /** The column names of `baseHeader`, in the order the header lists them. */
  const HeaderColumns: seq<string> := [
    "lat", "lon", "expiry_days_left", "distance_mm", "time_to_migrate_s",
    "sample_volume_uL", "sample_pH", "sample_turbidity_NTU", "sample_temp_C",
    "ambient_T_C", "ambient_RH_pct", "lighting_lux", "tilt_deg",
    "preincubation_time_s", "time_since_sampling_min", "image_blur_score",
    "tempo_transporte_horas", "estimated_concentration_ppb",
    "incerteza_estimativa_ppb", "control_line_ok", "controle_interno_result"]

  /** `baseHeader`: the CSV header line naming the 21 feature columns. */
  const BaseHeader: string := Join(HeaderColumns, ',')

  /** The CSV text `predictFromCSV` hands the dataset loader: the header plus the
      target column, then the row with an unknown target. */
  function PredictionCsv(target: string, row: string): string
  {
    BaseHeader + "," + target + "\n" + row + ",?"
  }

  /** A character of a column name: an ASCII letter, a digit or the underscore. */
  predicate IsWordChar(c: char)
  {
    ('a' <= c <= 'z') || ('A' <= c <= 'Z') || ('0' <= c <= '9') || c == '_'
  }

  predicate IsWord(s: string)
  {
    forall j :: 0 <= j < |s| ==> IsWordChar(s[j])
  }

  lemma HeaderWordsLow(i: nat)
    requires i < 7
    ensures IsWord(HeaderColumns[i])
  {
  }

  lemma HeaderWordsMid(i: nat)
    requires 7 <= i < 14
    ensures IsWord(HeaderColumns[i])
  {
  }

  lemma HeaderWordsHigh(i: nat)
    requires 14 <= i < 17
    ensures IsWord(HeaderColumns[i])
  {
  }

  lemma HeaderWordsMeasured(i: nat)
    requires 17 <= i < 19
    ensures IsWord(HeaderColumns[i])
  {
  }

  lemma HeaderWordsCategorical(i: nat)
    requires 19 <= i < 21
    ensures IsWord(HeaderColumns[i])
  {
  }

  /** Every column name of the header is a word: no comma, no line break. */
  lemma HeaderWords(c: char)
    requires !IsWordChar(c)
    ensures forall i :: 0 <= i < |HeaderColumns| ==> c !in HeaderColumns[i]
  {
    forall i | 0 <= i < |HeaderColumns|
      ensures c !in HeaderColumns[i]
    {
      if i < 7 {
        HeaderWordsLow(i);
      } else if i < 14 {
        HeaderWordsMid(i);
      } else if i < 17 {
        HeaderWordsHigh(i);
      } else if i < 19 {
        HeaderWordsMeasured(i);
      } else {
        HeaderWordsCategorical(i);
      }
    }
  }

  /** The chaincode's header names the same columns, in the same order, as the row the
      clients emit. */
  lemma HeaderMatchesClientColumns()
    ensures Split(BaseHeader, ',') == Features.Columns
  {
    HeaderWords(',');
    SplitJoin(HeaderColumns, ',');
    assert HeaderColumns == Features.Columns;
  }

  /** The header is a single line. */
  lemma HeaderIsOneLine()
    ensures '\n' !in BaseHeader
  {
    HeaderWords('\n');
    JoinAvoids(HeaderColumns, ',', '\n');
  }

  /** Shape of the prediction CSV: a header line and a data line, the header naming
      the 21 columns and the target, the data line holding the row's fields and "?".
      A 21-field row therefore lines up with the header. */
  lemma PredictionCsvShape(target: string, row: string)
    requires '\n' !in target && '\n' !in row && ',' !in target
    ensures var lines := Split(PredictionCsv(target, row), '\n');
            && |lines| == 2
            && Split(lines[0], ',') == Features.Columns + [target]
            && Split(lines[1], ',') == Split(row, ',') + ["?"]
  {
    HeaderIsOneLine();
    HeaderMatchesClientColumns();
    CsvShape(BaseHeader, target, row);
  }

  lemma CsvShape(columns: string, target: string, row: string)
    requires '\n' !in columns && '\n' !in target && '\n' !in row && ',' !in target
    ensures var lines := Split(columns + "," + target + "\n" + row + ",?", '\n');
            && |lines| == 2
            && Split(lines[0], ',') == Split(columns, ',') + [target]
            && Split(lines[1], ',') == Split(row, ',') + ["?"]
  {
    var header := columns + ([','] + target);
    var data := row + ([','] + "?");
    assert columns + "," + target + "\n" + row + ",?" == header + (['\n'] + data);
    PredictionLines(header, data);
    SplitConcat(columns, target, ',');
    SplitNoSeparator(target, ',');
    SplitConcat(row, "?", ',');
    SplitNoSeparator("?", ',');
  }

  lemma PredictionLines(header: string, data: string)
    requires '\n' !in header && '\n' !in data
    ensures Split(header + (['\n'] + data), '\n') == [header, data]
  {
    SplitConcat(header, data, '\n');
    SplitNoSeparator(header, '\n');
    SplitNoSeparator(data, '\n');
  }

  /** `strconv.Atoi` with its error ignored: an optional sign and one or more decimal
      digits give their value, clamped to the 64-bit range on overflow; anything else
      gives 0. */
  function Atoi(v: string): (n: int)
    ensures !IsIntText(v) ==> n == 0
    ensures Int64Min <= n <= Int64Max
  {
    var neg := |v| > 0 && v[0] == '-';
    var digits := if |v| > 0 && (v[0] == '-' || v[0] == '+') then v[1..] else v;
    if IsDigitGroup(digits) then Clamp64(if neg then -(DecimalValue(digits) as int) else DecimalValue(digits))
    else 0
  }

  const Int64Min: int := -0x8000_0000_0000_0000
  const Int64Max: int := 0x7FFF_FFFF_FFFF_FFFF

  function Clamp64(x: int): int
  {
    if x < Int64Min then Int64Min else if x > Int64Max then Int64Max else x
  }

  /** The text Atoi accepts: an optional sign, then decimal digits. */
  predicate IsIntText(v: string)
  {
    IsDigitGroup(v) || (|v| > 0 && (v[0] == '-' || v[0] == '+') && IsDigitGroup(v[1..]))
  }

  /** Atoi reads back the decimal text of any 64-bit integer. */
  lemma AtoiRoundTrip(n: int)
    requires Int64Min <= n <= Int64Max
    ensures n >= 0 ==> Atoi(Decimal(n)) == n
    ensures n < 0 ==> Atoi("-" + Decimal(-n)) == n
  {
    if n >= 0 {
      DecimalRoundTrip(n);
      assert Decimal(n)[0] != '-' && Decimal(n)[0] != '+' by {
        assert IsDigit(Decimal(n)[0]);
      }
    } else {
      DecimalRoundTrip(-n);
      assert ("-" + Decimal(-n))[1..] == Decimal(-n);
    }
  }

  /** ASCII lower case. */
  function Lower(c: char): char
  {
    if 'A' <= c <= 'Z' then (c as int + 32) as char else c
  }

  function LowerAscii(v: string): (w: string)
    ensures |w| == |v| && forall i :: 0 <= i < |v| ==> w[i] == Lower(v[i])
  {
    seq(|v|, i requires 0 <= i < |v| => Lower(v[i]))
  }

  /** The boolean cell: "1", or "true" in any letter case. Go's strings.ToLower maps no
      non-ASCII character onto these four letters, so ASCII case folding decides the
      same. */
  function ToBool(v: string): (b: bool)
    ensures b <==> v == "1" || (|v| == 4 && Lower(v[0]) == 't' && Lower(v[1]) == 'r' && Lower(v[2]) == 'u' && Lower(v[3]) == 'e')
  {
    LowerIsTrue(v);
    v == "1" || LowerAscii(v) == "true"
  }

  lemma LowerIsTrue(v: string)
    ensures LowerAscii(v) == "true" <==> |v| == 4 && Lower(v[0]) == 't' && Lower(v[1]) == 'r' && Lower(v[2]) == 'u' && Lower(v[3]) == 'e'
  {
    if |v| == 4 && Lower(v[0]) == 't' && Lower(v[1]) == 'r' && Lower(v[2]) == 'u' && Lower(v[3]) == 'e' {
      var w := LowerAscii(v);
      assert w == [w[0], w[1], w[2], w[3]];
    }
  }

  /** `strconv.ParseFloat` with its error ignored: `parseFloat` is the parser, and
      text it rejects reads as 0. */
  function ToFloat(v: string, parseFloat: string -> Option<real>): (f: real)
    ensures parseFloat(v).None? ==> f == 0.0
    ensures parseFloat(v).Some? ==> f == parseFloat(v).value
  {
    match parseFloat(v)
    case Some(f) => f
    case None => 0.0
  }

  /** The real-valued measurement read from CSV column `i`: every column but 2 (the
      integer expiry), 19 (the boolean) and 20 (the label text). */
  function RealField(m: Measurements, i: nat): real
    requires i < 19 && i != 2
  {
    if i == 0 then m.lat
    else if i == 1 then m.lon
    else if i == 3 then m.distanceMm
    else if i == 4 then m.timeToMigrateS
    else if i == 5 then m.sampleVolumeUl
    else if i == 6 then m.samplePh
    else if i == 7 then m.sampleTurbidityNtu
    else if i == 8 then m.sampleTempC
    else if i == 9 then m.ambientTC
    else if i == 10 then m.ambientRhPct
    else if i == 11 then m.lightingLux
    else if i == 12 then m.tiltDeg
    else if i == 13 then m.preincubationTimeS
    else if i == 14 then m.timeSinceSamplingMin
    else if i == 15 then m.imageBlurScore
    else if i == 16 then m.tempoTransporteHoras
    else if i == 17 then m.estimatedConcentrationPpb
    else m.incertezaEstimativaPpb
  }

  /** `parseCSVToTestRecord`: exactly 21 comma-separated fields, read in column order;
      numbers that do not parse read as 0, cell 19 is the boolean and cell 20 is copied
      verbatim. */
  function ParseCsvRow(row: string, parseFloat: string -> Option<real>): (r: Result<Measurements, ChainError>)
    ensures r.Success? <==> |Split(row, ',')| == 21
    ensures r.Failure? ==> r.error == CsvFieldCount(|Split(row, ',')|)
    ensures r.Success? ==> var f := Split(row, ',');
      && (forall i | 0 <= i < 19 && i != 2 :: RealField(r.value, i) == ToFloat(f[i], parseFloat))
      && r.value.expiryDaysLeft == Atoi(f[2])
      && r.value.controlLineOk == ToBool(f[19])
      && r.value.controleInternoResult == f[20]
  {
    var f := Split(row, ',');
    if |f| != 21 then Failure(CsvFieldCount(|f|))
    else
      var num := (t: string) => ToFloat(t, parseFloat);
      Success(Measurements(
        num(f[0]), num(f[1]), Atoi(f[2]), num(f[3]), num(f[4]), num(f[5]), num(f[6]),
        num(f[7]), num(f[8]), num(f[9]), num(f[10]), num(f[11]), num(f[12]), num(f[13]),
        num(f[14]), num(f[15]), num(f[16]), num(f[17]), num(f[18]), ToBool(f[19]), f[20]))
  }

  /** The collaborators StoreTest relies on that lie outside the chaincode's own logic:
      json.Unmarshal of the client's JSON, the base64 decoding, temporary file and
      ID3 loading of a model, and the prediction of one CSV text with a loaded model. */
  datatype Oracles<!M> = Oracles(
    decodeRecord: string -> Option<TestRecord>,
    loadModel: string -> Option<M>,
    predict: (M, string) -> Option<string>)

  /** `loadID3ModelFromLedger`: the model stored under `key`, if it can be loaded. */
  function LoadModel<M>(st: WorldState, key: string, o: Oracles<M>): (r: Result<M, ChainError>)
    ensures key !in st ==> r == Failure(ModelMissing(key))
    ensures key in st && o.loadModel(AsModel(st[key]).modelData).None? ==> r == Failure(ModelUnloadable(key))
    ensures r.Success? <==> key in st && o.loadModel(AsModel(st[key]).modelData).Some?
    ensures r.Success? ==> key in st && o.loadModel(AsModel(st[key]).modelData) == Some(r.value)
  {
    if key !in st then Failure(ModelMissing(key))
    else match o.loadModel(AsModel(st[key]).modelData)
      case Some(m) => Success(m)
      case None => Failure(ModelUnloadable(key))
  }

  /** `predictFromCSV`: the label a model gives the row, under the target column. */
  function Predict<M>(m: M, target: string, row: string, o: Oracles<M>): (r: Result<string, ChainError>)
    ensures r.Success? <==> o.predict(m, PredictionCsv(target, row)).Some?
    ensures r.Success? ==> r.value == o.predict(m, PredictionCsv(target, row)).value
  {
    match o.predict(m, PredictionCsv(target, row))
    case Some(prediction) => Success(prediction)
    case None => Failure(PredictionFailed(target))
  }

  /** The record StoreTest writes: the client's record under its key, labelled by the
      three models, at version 0, created and last updated at the transaction time. */
  function NewTestRecord(decoded: TestRecord, testId: string, acao: string, result: string, qc: string, txTime: string): TestRecord
  {
    decoded.(testId := testId, acaoRecomendada := acao, resultClass := result, qcStatus := qc,
             version := 0, createdAt := txTime, lastUpdatedAt := txTime)
  }

  /** The label the model stored under a target gives a row: the model is loaded, then
      asked for its prediction. */
  function Label<M>(st: WorldState, target: string, row: string, o: Oracles<M>): Result<string, ChainError>
  {
    var m :- LoadModel(st, target, o);
    Predict(m, target, row, o)
  }

  /** No label comes from a target whose model is not stored. */
  lemma LabelNeedsModel<M>(st: WorldState, target: string, row: string, o: Oracles<M>)
    requires target !in st
    ensures Label(st, target, row, o) == Failure(ModelMissing(target))
  {
  }

  /** `StoreTest`: insert-only. Fails if the key is taken; otherwise decodes the JSON,
      labels the record with the three stored models and stores it. */
  function StoreTest<M>(st: WorldState, testId: string, jsonStr: string, predictStr: string,
                        txTime: string, o: Oracles<M>): (r: Result<WorldState, ChainError>)
    ensures testId in st ==> r == Failure(TestExists)
    ensures testId !in st && o.decodeRecord(jsonStr).None? ==> r == Failure(BadJson)
    ensures r.Success? <==>
      && testId !in st && testId != "" && o.decodeRecord(jsonStr).Some?
      && Label(st, "acao_recomendada", predictStr, o).Success?
      && Label(st, "result_class", predictStr, o).Success?
      && Label(st, "qc_status", predictStr, o).Success?
    ensures r.Success? ==> testId !in st && testId != ""
    ensures r.Success? ==> r.value.Keys == st.Keys + {testId}
    ensures r.Success? ==> forall k :: k in st ==> r.value[k] == st[k]
    ensures r.Success? ==> o.decodeRecord(jsonStr).Some? && r.value[testId].TestDoc?
    ensures r.Success? ==> var rec := r.value[testId].record;
      && rec.testId == testId
      && rec.version == 0
      && rec.createdAt == txTime && rec.lastUpdatedAt == txTime
      && rec.measurements == o.decodeRecord(jsonStr).value.measurements
      && rec.descriptive == o.decodeRecord(jsonStr).value.descriptive
  {
    if testId in st then Failure(TestExists)
    else match o.decodeRecord(jsonStr)
      case None => Failure(BadJson)
      case Some(decoded) =>
        var acaoModel :- LoadModel(st, "acao_recomendada", o);
        var resultModel :- LoadModel(st, "result_class", o);
        var qcModel :- LoadModel(st, "qc_status", o);
        var acao :- Predict(acaoModel, "acao_recomendada", predictStr, o);
        var result :- Predict(resultModel, "result_class", predictStr, o);
        var qc :- Predict(qcModel, "qc_status", predictStr, o);
        PutState(st, testId, TestDoc(NewTestRecord(decoded, testId, acao, result, qc, txTime)))
  }

  /** StoreTest labels each record with what the corresponding model predicts for the
      row it was given. */
  lemma StoreTestLabels<M>(st: WorldState, testId: string, jsonStr: string, predictStr: string,
                           txTime: string, o: Oracles<M>)
    requires StoreTest(st, testId, jsonStr, predictStr, txTime, o).Success?
    ensures var rec := StoreTest(st, testId, jsonStr, predictStr, txTime, o).value[testId].record;
      && LoadModel(st, "acao_recomendada", o).Success?
      && LoadModel(st, "result_class", o).Success?
      && LoadModel(st, "qc_status", o).Success?
      && Predict(LoadModel(st, "acao_recomendada", o).value, "acao_recomendada", predictStr, o) == Success(rec.acaoRecomendada)
      && Predict(LoadModel(st, "result_class", o).value, "result_class", predictStr, o) == Success(rec.resultClass)
      && Predict(LoadModel(st, "qc_status", o).value, "qc_status", predictStr, o) == Success(rec.qcStatus)
  {
    var r := StoreTest(st, testId, jsonStr, predictStr, txTime, o);
    var a := LoadModel(st, "acao_recomendada", o);
    var b := LoadModel(st, "result_class", o);
    var c := LoadModel(st, "qc_status", o);
    assert testId !in st && o.decodeRecord(jsonStr).Some?;
    assert a.Success? && b.Success? && c.Success?;
    var pa := Predict(a.value, "acao_recomendada", predictStr, o);
    var pb := Predict(b.value, "result_class", predictStr, o);
    var pc := Predict(c.value, "qc_status", predictStr, o);
    assert pa.Success? && pb.Success? && pc.Success?;
    var rec := NewTestRecord(o.decodeRecord(jsonStr).value, testId, pa.value, pb.value, pc.value, txTime);
    assert r == PutState(st, testId, TestDoc(rec));
  }

  /** Without all three models stored, no test can be stored. */
  lemma StoreTestNeedsModels<M>(st: WorldState, testId: string, jsonStr: string, predictStr: string,
                                txTime: string, o: Oracles<M>)
    requires !(ModelKeys <= st.Keys)
    ensures StoreTest(st, testId, jsonStr, predictStr, txTime, o).Failure?
  {
    assert "acao_recomendada" !in st || "result_class" !in st || "qc_status" !in st;
    if "acao_recomendada" !in st {
      LabelNeedsModel(st, "acao_recomendada", predictStr, o);
    } else if "result_class" !in st {
      LabelNeedsModel(st, "result_class", predictStr, o);
    } else {
      LabelNeedsModel(st, "qc_status", predictStr, o);
    }
  }

  /** `UpdateTest`: update-only. Fails if the key is absent; otherwise replaces the
      stored record by the decoded one, under the same key, one version later and
      stamped with the transaction time. */
  function UpdateTest(st: WorldState, testId: string, fullJson: string, txTime: string,
                      decodeRecord: string -> Option<TestRecord>): (r: Result<WorldState, ChainError>)
    ensures testId !in st ==> r == Failure(TestNotFound)
    ensures testId in st && decodeRecord(fullJson).None? ==> r == Failure(BadJson)
    ensures r.Success? <==> testId in st && testId != "" && decodeRecord(fullJson).Some?
    ensures r.Success? ==> testId in st && testId != ""
    ensures r.Success? ==> r.value.Keys == st.Keys
    ensures r.Success? ==> forall k :: k in st && k != testId ==> r.value[k] == st[k]
    ensures r.Success? ==> decodeRecord(fullJson).Some? && r.value[testId].TestDoc?
    ensures r.Success? ==> var rec := r.value[testId].record;
      && rec.testId == testId
      && rec.version == VersionOf(st[testId]) + 1
      && rec.lastUpdatedAt == txTime
      && rec == decodeRecord(fullJson).value.(testId := testId, version := rec.version, lastUpdatedAt := txTime)
  {
    if testId !in st then Failure(TestNotFound)
    else
      var existing := AsTestRecord(st[testId]);
      match decodeRecord(fullJson)
      case None => Failure(BadJson)
      case Some(updated) =>
        PutState(st, testId, TestDoc(updated.(testId := testId, version := existing.version + 1, lastUpdatedAt := txTime)))
  }

  /** `QueryTest`: the stored document under the key, read as a test record. */
  function QueryTest(st: WorldState, testId: string): (r: Result<TestRecord, ChainError>)
    ensures testId !in st <==> r == Failure(TestNotFound)
    ensures r.Success? ==> r.value.version == VersionOf(st[testId])
    ensures testId in st && st[testId].TestDoc? ==> r == Success(st[testId].record)
  {
    if testId !in st then Failure(TestNotFound) else Success(AsTestRecord(st[testId]))
  }

  /** Round trip: a stored test reads back as the record stored, at version 0. */
  lemma StoreThenQuery<M>(st: WorldState, testId: string, jsonStr: string, predictStr: string,
                          txTime: string, o: Oracles<M>)
    requires StoreTest(st, testId, jsonStr, predictStr, txTime, o).Success?
    ensures var st' := StoreTest(st, testId, jsonStr, predictStr, txTime, o).value;
      && QueryTest(st', testId).Success?
      && QueryTest(st', testId).value.testId == testId
      && QueryTest(st', testId).value.version == 0
      && QueryTest(st', testId).value.createdAt == txTime
      && (forall k :: k in st ==> QueryTest(st', k) == QueryTest(st, k))
  {
  }

  /** A fresh, non-empty key, decodable JSON and three models that each load and
      predict: StoreTest succeeds, and the test reads back as the decoded record under
      its own key, labelled by the three models, at version 0 and stamped with the
      transaction time. */
  lemma StoreTestSucceeds<M>(st: WorldState, testId: string, jsonStr: string, predictStr: string,
                             txTime: string, o: Oracles<M>)
    requires testId !in st && testId != ""
    requires o.decodeRecord(jsonStr).Some?
    requires Label(st, "acao_recomendada", predictStr, o).Success?
    requires Label(st, "result_class", predictStr, o).Success?
    requires Label(st, "qc_status", predictStr, o).Success?
    ensures StoreTest(st, testId, jsonStr, predictStr, txTime, o).Success?
    ensures QueryTest(StoreTest(st, testId, jsonStr, predictStr, txTime, o).value, testId) ==
      Success(NewTestRecord(o.decodeRecord(jsonStr).value, testId,
                            Label(st, "acao_recomendada", predictStr, o).value,
                            Label(st, "result_class", predictStr, o).value,
                            Label(st, "qc_status", predictStr, o).value, txTime))
  {
    StoreTestLabels(st, testId, jsonStr, predictStr, txTime, o);
  }

  /** A key stored once cannot be stored again. */
  lemma StoreTestOnce<M>(st: WorldState, testId: string, jsonStr: string, predictStr: string, txTime: string,
                         jsonStr2: string, predictStr2: string, txTime2: string, o: Oracles<M>)
    requires StoreTest(st, testId, jsonStr, predictStr, txTime, o).Success?
    ensures StoreTest(StoreTest(st, testId, jsonStr, predictStr, txTime, o).value, testId, jsonStr2, predictStr2, txTime2, o)
      == Failure(TestExists)
  {
  }

  /** Each successful update raises the version read back by exactly one, and other
      tests read back as before. */
  lemma UpdateThenQuery(st: WorldState, testId: string, fullJson: string, txTime: string,
                        decodeRecord: string -> Option<TestRecord>)
    requires UpdateTest(st, testId, fullJson, txTime, decodeRecord).Success?
    ensures var st' := UpdateTest(st, testId, fullJson, txTime, decodeRecord).value;
      && QueryTest(st', testId).Success? && QueryTest(st, testId).Success?
      && QueryTest(st', testId).value.version == QueryTest(st, testId).value.version + 1
      && QueryTest(st', testId).value.lastUpdatedAt == txTime
      && (forall k :: k != testId ==> QueryTest(st', k) == QueryTest(st, k))
  {
  }

  /** Any stored key with decodable JSON: UpdateTest succeeds, and the key reads back
      as the decoded record under that key, one version past the stored document and
      stamped with the transaction time. */
  lemma UpdateTestSucceeds(st: WorldState, testId: string, fullJson: string, txTime: string,
                           decodeRecord: string -> Option<TestRecord>)
    requires testId in st && testId != ""
    requires decodeRecord(fullJson).Some?
    ensures UpdateTest(st, testId, fullJson, txTime, decodeRecord).Success?
    ensures QueryTest(UpdateTest(st, testId, fullJson, txTime, decodeRecord).value, testId) ==
      Success(decodeRecord(fullJson).value.(testId := testId, version := VersionOf(st[testId]) + 1,
                                            lastUpdatedAt := txTime))
  {
  }

  /** UpdateTest does not keep the stored creation time or labels: they come from the
      JSON the client sends. */
  lemma UpdateTakesCreationTimeFromClient(st: WorldState, testId: string, fullJson: string, txTime: string,
                                          decodeRecord: string -> Option<TestRecord>)
    requires UpdateTest(st, testId, fullJson, txTime, decodeRecord).Success?
    ensures var rec := UpdateTest(st, testId, fullJson, txTime, decodeRecord).value[testId].record;
      && rec.createdAt == decodeRecord(fullJson).value.createdAt
      && rec.acaoRecomendada == decodeRecord(fullJson).value.acaoRecomendada
      && rec.resultClass == decodeRecord(fullJson).value.resultClass
      && rec.qcStatus == decodeRecord(fullJson).value.qcStatus
  {
  }

  /** Models and tests share one key space: UpdateTest on any of the three model keys
      replaces the stored model by a test record. A test record read as a model holds
      empty model data, so whenever the model loader rejects empty data, every later
      StoreTest fails. */
  lemma UpdateTestOverwritesModel<M>(st: WorldState, modelKey: string, fullJson: string, txTime: string,
                                     o: Oracles<M>, testId: string, jsonStr: string, predictStr: string,
                                     txTime2: string)
    requires modelKey in ModelKeys
    requires UpdateTest(st, modelKey, fullJson, txTime, o.decodeRecord).Success?
    requires o.loadModel("").None?
    ensures var st' := UpdateTest(st, modelKey, fullJson, txTime, o.decodeRecord).value;
      && st'[modelKey].TestDoc?
      && StoreTest(st', testId, jsonStr, predictStr, txTime2, o).Failure?
  {
    var st' := UpdateTest(st, modelKey, fullJson, txTime, o.decodeRecord).value;
    assert LoadModel(st', modelKey, o) == Failure(ModelUnloadable(modelKey));
    assert Label(st', modelKey, predictStr, o).Failure?;
  }

  /** QueryTest on a model key answers with an otherwise empty record carrying the
      model's version. */
  lemma QueryTestOnModel(st: WorldState, key: string)
    requires key in st && st[key].ModelDoc?
    ensures QueryTest(st, key) == Success(ZeroRecord.(version := st[key].model.version))
  {
  }

  /** The transaction functions the contract exposes, with their argument counts. The
      contract API rejects any other name, and any call with a different number of
      string arguments, before the function runs. */
  function Arity(name: string): Option<nat>
  {
    if name == "StoreModel" then Some(2)
    else if name == "StoreTest" then Some(3)
    else if name == "UpdateTest" then Some(2)
    else if name == "QueryTest" then Some(1)
    else None
  }

  /** Whether the contract API lets a call through to a transaction function. */
  predicate Accepts(name: string, args: seq<string>)
  {
    Arity(name) == Some(|args|)
  }

  /** A submitted transaction as the contract API runs it: an unknown name or a wrong
      number of arguments is refused before any function runs; otherwise the named
      function runs on the arguments in order. QueryTest writes nothing. */
  function Submit<M>(st: WorldState, name: string, args: seq<string>, txTime: string, o: Oracles<M>): (r: Result<WorldState, ChainError>)
    ensures Arity(name).None? ==> r == Failure(UnknownFunction(name))
    ensures Arity(name).Some? && Arity(name).value != |args| ==> r == Failure(WrongArgumentCount(Arity(name).value, |args|))
    ensures r.Success? ==> Accepts(name, args)
    ensures Accepts(name, args) && name == "StoreModel" ==> r == StoreModel(st, args[0], args[1], txTime)
    ensures Accepts(name, args) && name == "StoreTest" ==> r == StoreTest(st, args[0], args[1], args[2], txTime, o)
    ensures Accepts(name, args) && name == "UpdateTest" ==> r == UpdateTest(st, args[0], args[1], txTime, o.decodeRecord)
    ensures Accepts(name, args) && name == "QueryTest" ==> (r.Success? <==> args[0] in st) && (r.Success? ==> r.value == st)
  {
    match Arity(name)
    case None => Failure(UnknownFunction(name))
    case Some(n) =>
      if n != |args| then Failure(WrongArgumentCount(n, |args|))
      else if name == "StoreModel" then StoreModel(st, args[0], args[1], txTime)
      else if name == "StoreTest" then StoreTest(st, args[0], args[1], args[2], txTime, o)
      else if name == "UpdateTest" then UpdateTest(st, args[0], args[1], txTime, o.decodeRecord)
      else
        match QueryTest(st, args[0])
        case Failure(e) => Failure(e)
        case Success(_) => Success(st)
  }
}

=== FILE: features.dfy ===
/** The client-side feature-vector encoder `preprocessForPrediction`, which appears
    three times with the same logic (client/resources/standalone_client.js,
    client/teste.js and client/clientbkp.js). It turns a loosely typed test record
    into the 21-column comma-separated row the chaincode feeds its decision trees. */
module Features {
  import opened Wrappers
  import opened Text

  /** A field value of a test record once JSON.parse has produced it. A key that is
      missing from the record is JavaScript's `undefined`. Numbers are held as the text
      JavaScript's Number::toString gives them, because that text is all the encoder
      ever observes of a number. */
  datatype Value =
    | Null
    | Bool(b: bool)
    | Num(text: string)
    | Str(s: string)

  /** A test record as a plain JavaScript object: field name to value. */
  type Record = map<string, Value>

  const ControlLineOk := "control_line_ok"
  const ControleInternoResult := "controle_interno_result"
  const ImageBlurScore := "image_blur_score"

  /** The sixteen numeric features the encoder null-fills. */
  const NumericFeatures: seq<string> := [
    "expiry_days_left", "distance_mm", "time_to_migrate_s", "sample_volume_uL",
    "sample_pH", "sample_turbidity_NTU", "sample_temp_C", "ambient_T_C",
    "ambient_RH_pct", "lighting_lux", "tilt_deg", "preincubation_time_s",
    "time_since_sampling_min", "tempo_transporte_horas", "estimated_concentration_ppb",
    "incerteza_estimativa_ppb"
  ]

  const CategoricalFeatures: seq<string> := [ControlLineOk, ControleInternoResult]

  /** The eighteen features whose null or undefined values become 0. */
  const FilledFeatures: seq<string> := NumericFeatures + CategoricalFeatures

  /** The column order of the emitted row; it is also the chaincode's CSV header. */
  const Columns: seq<string> := [
    "lat", "lon", "expiry_days_left", "distance_mm", "time_to_migrate_s",
    "sample_volume_uL", "sample_pH", "sample_turbidity_NTU", "sample_temp_C",
    "ambient_T_C", "ambient_RH_pct", "lighting_lux", "tilt_deg",
    "preincubation_time_s", "time_since_sampling_min", "image_blur_score",
    "tempo_transporte_horas", "estimated_concentration_ppb",
    "incerteza_estimativa_ppb", "control_line_ok", "controle_interno_result"
  ]

  /** The label encoder for `controle_interno_result`. */
  const ControleInternoEncoder: map<string, nat> := map["ok" := 2, "fail" := 1, "invalid" := 0]

  /** A small non-negative integer as a JavaScript number. */
  function Int(n: nat): Value
  {
    Num(Decimal(n))
  }

  const Zero: Value := Num("0")

  function Lookup(rec: Record, key: string): Option<Value>
  {
    if key in rec then Some(rec[key]) else None
  }

  /** JavaScript's ToPropertyKey, which the `in` operator applies to its left operand. */
  function PropertyKey(v: Option<Value>): string
  {
    match v
    case None => "undefined"
    case Some(Null) => "null"
    case Some(Bool(b)) => if b then "true" else "false"
    case Some(Num(t)) => t
    case Some(Str(s)) => s
  }

  /** The text `Array.prototype.join` writes for one element: nothing for null and
      undefined, otherwise the value's ToString. */
  function Cell(v: Option<Value>): string
  {
    match v
    case None => ""
    case Some(Null) => ""
    case Some(Bool(b)) => if b then "true" else "false"
    case Some(Num(t)) => t
    case Some(Str(s)) => s
  }

  /** Step 1: a boolean `control_line_ok` becomes the number 1 or 0; any other value,
      or its absence, is left alone. */
  function EncodeControlLine(rec: Record): (out: Record)
    ensures out.Keys == rec.Keys
    ensures forall k :: k in rec && k != ControlLineOk ==> out[k] == rec[k]
    ensures Lookup(rec, ControlLineOk) == Some(Bool(true)) ==> out[ControlLineOk] == Int(1)
    ensures Lookup(rec, ControlLineOk) == Some(Bool(false)) ==> out[ControlLineOk] == Int(0)
    ensures ControlLineOk in rec && !rec[ControlLineOk].Bool? ==> out[ControlLineOk] == rec[ControlLineOk]
  {
    if ControlLineOk in rec && rec[ControlLineOk].Bool? then
      rec[ControlLineOk := Int(if rec[ControlLineOk].b then 1 else 0)]
    else rec
  }

  /** Step 2: `controle_interno_result` is always replaced, by its label code when its
      property key is in the encoder table and by 0 otherwise (no error is raised). */
  function EncodeControleInterno(rec: Record): (out: Record)
    ensures out.Keys == rec.Keys + {ControleInternoResult}
    ensures forall k :: k in rec && k != ControleInternoResult ==> out[k] == rec[k]
    ensures var key := PropertyKey(Lookup(rec, ControleInternoResult));
            && (out[ControleInternoResult] == Int(2) <==> key == "ok")
            && (out[ControleInternoResult] == Int(1) <==> key == "fail")
            && (out[ControleInternoResult] == Int(0) <==> key != "ok" && key != "fail")
  {
    var key := PropertyKey(Lookup(rec, ControleInternoResult));
    var code := if key in ControleInternoEncoder then ControleInternoEncoder[key] else 0;
    rec[ControleInternoResult := Int(code)]
  }

  /** Step 3: every listed feature that is null or undefined becomes 0, visiting the
      features in order. Present non-null values, 0 included, are kept. */
  function FillNulls(rec: Record, features: seq<string>): (out: Record)
    ensures out.Keys == rec.Keys + set f | f in features
    ensures forall f :: f in features ==> out[f] != Null
    ensures forall f :: f in features && Lookup(rec, f) in {None, Some(Null)} ==> out[f] == Zero
    ensures forall k :: k in rec && rec[k] != Null ==> out[k] == rec[k]
    ensures forall k :: k in rec && k !in features ==> out[k] == rec[k]
    decreases |features|
  {
    if |features| == 0 then rec
    else
      var f := features[0];
      var step := if f !in rec || rec[f] == Null then rec[f := Zero] else rec;
      FillNulls(step, features[1..])
  }

  /** Step 4: a null or undefined `image_blur_score` becomes 0 (JavaScript's 0.0 is the
      same number as 0). */
  function FillBlurScore(rec: Record): (out: Record)
    ensures out.Keys == rec.Keys + {ImageBlurScore}
    ensures forall k :: k in rec && k != ImageBlurScore ==> out[k] == rec[k]
    ensures Lookup(rec, ImageBlurScore) in {None, Some(Null)} ==> out[ImageBlurScore] == Zero
    ensures ImageBlurScore in rec && rec[ImageBlurScore] != Null ==> out[ImageBlurScore] == rec[ImageBlurScore]
  {
    if ImageBlurScore !in rec || rec[ImageBlurScore] == Null then rec[ImageBlurScore := Zero] else rec
  }

  /** The shallow copy the encoder edits: steps 1 to 4 in source order. */
  function Normalize(rec: Record): Record
  {
    FillBlurScore(FillNulls(EncodeControleInterno(EncodeControlLine(rec)), FilledFeatures))
  }

  /** Step 5: the 21 cells in column order. */
  function Row(processed: Record): (cells: seq<string>)
    ensures |cells| == |Columns|
  {
    seq(|Columns|, i requires 0 <= i < |Columns| => Cell(Lookup(processed, Columns[i])))
  }

  /** `preprocessForPrediction`: the comma-joined row of the normalized copy. */
  function Preprocess(rec: Record): string
  {
    Join(Row(Normalize(rec)), ',')
  }

  /** How the encoder treats each of the 21 columns. */
  datatype ColumnKind = Coordinate | NumericFeature | BlurScore | ControlLine | ControleInterno

  function KindOf(i: nat): ColumnKind
    requires i < |Columns|
  {
    if i < 2 then Coordinate
    else if i == 15 then BlurScore
    else if i == 19 then ControlLine
    else if i == 20 then ControleInterno
    else NumericFeature
  }

  /** Reference definition of each emitted cell, read directly off the input record:
      `lat` and `lon` are emitted as they are; `controle_interno_result` is its label
      code with default 0; a boolean `control_line_ok` is 1 or 0; every other column
      is 0 when null or undefined and its own text otherwise. */
  function ExpectedCell(rec: Record, i: nat): string
    requires i < |Columns|
  {
    var v := Lookup(rec, Columns[i]);
    match KindOf(i)
    case Coordinate => Cell(v)
    case ControleInterno =>
      var key := PropertyKey(v);
      if key == "ok" then "2" else if key == "fail" then "1" else "0"
    case ControlLine =>
      (match v
       case Some(Bool(b)) => if b then "1" else "0"
       case _ => FilledCell(v))
    case NumericFeature => FilledCell(v)
    case BlurScore => FilledCell(v)
  }

  /** A null-filled column: 0 when null or undefined, its own text otherwise. */
  function FilledCell(v: Option<Value>): string
  {
    if v == None || v == Some(Null) then "0" else Cell(v)
  }

  lemma CoordinateColumns()
    ensures Columns[0] == "lat" && Columns[1] == "lon"
    ensures "lat" !in FilledFeatures && "lon" !in FilledFeatures
  {
  }

  lemma BlurScoreColumn()
    ensures Columns[15] == ImageBlurScore && ImageBlurScore !in FilledFeatures
  {
  }

  lemma CategoricalColumns()
    ensures Columns[19] == ControlLineOk && Columns[20] == ControleInternoResult
  {
  }

  lemma NumericColumns()
    ensures forall i :: 2 <= i < 15 ==> Columns[i] == NumericFeatures[i - 2]
    ensures forall i :: 16 <= i < 19 ==> Columns[i] == NumericFeatures[i - 3]
  {
  }

  /** A filled numeric feature: 0 when null or undefined, otherwise untouched. */
  lemma NormalizedNumeric(rec: Record, c: string)
    requires c in NumericFeatures
    ensures Lookup(Normalize(rec), c) ==
      if Lookup(rec, c) in {None, Some(Null)} then Some(Zero) else Lookup(rec, c)
  {
    assert c != ControlLineOk && c != ControleInternoResult;
    assert c in FilledFeatures;
    FilledAfterNormalize(rec, c);
    assert Lookup(EncodeControlLine(rec), c) == Lookup(rec, c);
  }

  /** `lat`, `lon`: never touched by the encoder. */
  lemma NormalizedCoordinate(rec: Record, c: string)
    requires c == "lat" || c == "lon"
    ensures Lookup(Normalize(rec), c) == Lookup(rec, c)
  {
    CoordinateColumns();
    var r2 := EncodeControleInterno(EncodeControlLine(rec));
    assert Lookup(r2, c) == Lookup(rec, c);
  }

  lemma NormalizedBlurScore(rec: Record)
    ensures Lookup(Normalize(rec), ImageBlurScore) ==
      if Lookup(rec, ImageBlurScore) in {None, Some(Null)} then Some(Zero) else Lookup(rec, ImageBlurScore)
  {
    BlurScoreColumn();
    var r2 := EncodeControleInterno(EncodeControlLine(rec));
    assert Lookup(r2, ImageBlurScore) == Lookup(rec, ImageBlurScore);
  }

  /** A filled feature other than the internal control leaves the encoder as step 1
      left it, null-filled. */
  lemma FilledAfterNormalize(rec: Record, c: string)
    requires c in FilledFeatures && c != ControleInternoResult
    ensures var v := Lookup(EncodeControlLine(rec), c);
      Lookup(Normalize(rec), c) == if v in {None, Some(Null)} then Some(Zero) else v
  {
    BlurScoreColumn();
    var r1 := EncodeControlLine(rec);
    var r2 := EncodeControleInterno(r1);
    assert Lookup(r2, c) == Lookup(r1, c);
  }

  lemma NormalizedControlLine(rec: Record)
    ensures Cell(Lookup(Normalize(rec), ControlLineOk)) ==
      match Lookup(rec, ControlLineOk)
      case Some(Bool(b)) => if b then "1" else "0"
      case v => FilledCell(v)
  {
    assert FilledFeatures[16] == ControlLineOk;
    FilledAfterNormalize(rec, ControlLineOk);
    ControlLineValue(Lookup(rec, ControlLineOk), Lookup(EncodeControlLine(rec), ControlLineOk),
                     Lookup(Normalize(rec), ControlLineOk));
  }

  /** The control-line cell, value by value: step 1's encoding, then the null fill. */
  lemma ControlLineValue(v0: Option<Value>, v1: Option<Value>, out: Option<Value>)
    requires v0.Some? && v0.value.Bool? ==> v1 == Some(Int(if v0.value.b then 1 else 0))
    requires !(v0.Some? && v0.value.Bool?) ==> v1 == v0
    requires out == if v1 in {None, Some(Null)} then Some(Zero) else v1
    ensures Cell(out) ==
      match v0
      case Some(Bool(b)) => if b then "1" else "0"
      case v => FilledCell(v)
  {
    assert Int(1) == Num("1") && Int(0) == Num("0");
  }

  lemma NormalizedControleInterno(rec: Record)
    ensures var key := PropertyKey(Lookup(rec, ControleInternoResult));
      Lookup(Normalize(rec), ControleInternoResult) ==
        Some(if key == "ok" then Int(2) else if key == "fail" then Int(1) else Int(0))
  {
    var r1 := EncodeControlLine(rec);
    assert Lookup(r1, ControleInternoResult) == Lookup(rec, ControleInternoResult);
  }

  /** A cell of a row: the text of its column's value. */
  lemma RowCell(p: Record, i: nat)
    requires i < |Columns|
    ensures Row(p)[i] == Cell(Lookup(p, Columns[i]))
  {
  }

  /** A processed record that null-fills column `i` of `rec` emits its filled cell. */
  lemma FilledRowCell(p: Record, rec: Record, i: nat)
    requires i < |Columns|
    requires Lookup(p, Columns[i]) ==
      if Lookup(rec, Columns[i]) in {None, Some(Null)} then Some(Zero) else Lookup(rec, Columns[i])
    ensures Row(p)[i] == FilledCell(Lookup(rec, Columns[i]))
  {
    RowCell(p, i);
  }

  lemma CoordinateCell(rec: Record, i: nat)
    requires i < |Columns| && KindOf(i) == Coordinate
    ensures Row(Normalize(rec))[i] == ExpectedCell(rec, i)
  {
    CoordinateColumns();
    NormalizedCoordinate(rec, Columns[i]);
    RowCell(Normalize(rec), i);
  }

  lemma BlurScoreCell(rec: Record, i: nat)
    requires i < |Columns| && KindOf(i) == BlurScore
    ensures Row(Normalize(rec))[i] == ExpectedCell(rec, i)
  {
    assert i == 15;
    BlurScoreColumn();
    NormalizedBlurScore(rec);
    FilledRowCell(Normalize(rec), rec, i);
  }

  /** The reference cells of the two categorical columns, read off their definition. */
  lemma CategoricalExpected(rec: Record)
    ensures ExpectedCell(rec, 19) ==
      match Lookup(rec, ControlLineOk)
      case Some(Bool(b)) => if b then "1" else "0"
      case v => FilledCell(v)
    ensures var key := PropertyKey(Lookup(rec, ControleInternoResult));
      ExpectedCell(rec, 20) == Cell(Some(if key == "ok" then Int(2) else if key == "fail" then Int(1) else Int(0)))
  {
    CategoricalColumns();
    assert Int(2) == Num("2") && Int(1) == Num("1") && Int(0) == Num("0");
  }

  lemma ControlLineCell(rec: Record, i: nat)
    requires i < |Columns| && KindOf(i) == ControlLine
    ensures Row(Normalize(rec))[i] == ExpectedCell(rec, i)
  {
    assert i == 19;
    CategoricalColumns();
    CategoricalExpected(rec);
    NormalizedControlLine(rec);
    RowCell(Normalize(rec), i);
  }

  lemma ControleInternoCell(rec: Record, i: nat)
    requires i < |Columns| && KindOf(i) == ControleInterno
    ensures Row(Normalize(rec))[i] == ExpectedCell(rec, i)
  {
    assert i == 20;
    CategoricalColumns();
    CategoricalExpected(rec);
    NormalizedControleInterno(rec);
    RowCell(Normalize(rec), i);
  }

  lemma NumericCell(rec: Record, i: nat)
    requires i < |Columns| && KindOf(i) == NumericFeature
    ensures Row(Normalize(rec))[i] == ExpectedCell(rec, i)
  {
    var c := Columns[i];
    assert c in NumericFeatures by {
      NumericColumns();
    }
    NormalizedNumeric(rec, c);
    FilledRowCell(Normalize(rec), rec, i);
  }

  /** The reference cell of a number column (every column before the categorical
      ones): a number's own text; for a missing or null value, the empty cell for a
      coordinate and "0" otherwise. */
  lemma NumberCellText(rec: Record, i: nat)
    requires i < 19
    ensures var v := Lookup(rec, Columns[i]);
      && (v.Some? && v.value.Num? ==> ExpectedCell(rec, i) == v.value.text)
      && (v in {None, Some(Null)} ==> ExpectedCell(rec, i) == if i < 2 then "" else "0")
  {
  }

  /** One cell of the emitted row is the reference cell of its column. */
  lemma CellMatchesReference(rec: Record, i: nat)
    requires i < |Columns|
    ensures Row(Normalize(rec))[i] == ExpectedCell(rec, i)
  {
    match KindOf(i)
    case Coordinate => CoordinateCell(rec, i);
    case BlurScore => BlurScoreCell(rec, i);
    case ControlLine => ControlLineCell(rec, i);
    case ControleInterno => ControleInternoCell(rec, i);
    case NumericFeature => NumericCell(rec, i);
  }

  /** Each cell of the emitted row is the reference cell of its column. */
  lemma RowMatchesReference(rec: Record)
    ensures forall i :: 0 <= i < |Columns| ==> Row(Normalize(rec))[i] == ExpectedCell(rec, i)
  {
    forall i | 0 <= i < |Columns|
      ensures Row(Normalize(rec))[i] == ExpectedCell(rec, i)
    {
      CellMatchesReference(rec, i);
    }
  }

  /** The emitted row has exactly 20 separating commas besides those inside the cells,
      so it splits back into exactly 21 fields precisely when no cell holds a comma. */
  lemma PreprocessFieldCount(rec: Record)
    ensures |Split(Preprocess(rec), ',')| == 21 <==>
      forall i :: 0 <= i < |Columns| ==> ',' !in ExpectedCell(rec, i)
  {
    var row := Row(Normalize(rec));
    JoinFieldCount(row, ',');
    RowMatchesReference(rec);
    assert (forall i :: 0 <= i < |row| ==> ',' !in row[i]) <==>
           (forall i :: 0 <= i < |Columns| ==> ',' !in ExpectedCell(rec, i));
  }

  /** When no cell holds a comma, splitting the row at commas gives back each column's
      reference cell in column order. */
  lemma PreprocessSplitsIntoColumns(rec: Record)
    requires forall i :: 0 <= i < |Columns| ==> ',' !in ExpectedCell(rec, i)
    ensures |Split(Preprocess(rec), ',')| == |Columns|
    ensures forall i :: 0 <= i < |Columns| ==> Split(Preprocess(rec), ',')[i] == ExpectedCell(rec, i)
  {
    RowMatchesReference(rec);
    SplitJoin(Row(Normalize(rec)), ',');
  }

  /** No value of the record writes a comma into its cell. */
  predicate CommaFree(rec: Record)
  {
    forall k :: k in rec ==> ',' !in Cell(Some(rec[k]))
  }

  /** A record whose values hold no comma yields comma-free cells. */
  lemma CommaFreeCells(rec: Record)
    requires CommaFree(rec)
    ensures forall i :: 0 <= i < |Columns| ==> ',' !in ExpectedCell(rec, i)
  {
    forall i | 0 <= i < |Columns|
      ensures ',' !in ExpectedCell(rec, i)
    {
      var c := Columns[i];
      if c in rec {
        assert ',' !in Cell(Some(rec[c]));
      }
    }
  }

  /** An absent `lat` or `lon` is emitted as an empty first or second field. */
  lemma MissingCoordinatesAreEmpty(rec: Record)
    requires "lat" !in rec || "lon" !in rec
    ensures "lat" !in rec ==> Row(Normalize(rec))[0] == ""
    ensures "lon" !in rec ==> Row(Normalize(rec))[1] == ""
  {
    CoordinateColumns();
    CellMatchesReference(rec, 0);
    CellMatchesReference(rec, 1);
  }

  /** A value with a comma in it breaks the 21-field shape: `lat` given as the text
      "1,5" makes the row split into more than 21 fields. */
  lemma CommaInValueBreaksShape()
    ensures |Split(Preprocess(map["lat" := Str("1,5")]), ',')| != 21
  {
    var rec := map["lat" := Str("1,5")];
    CoordinateColumns();
    assert ExpectedCell(rec, 0) == "1,5";
    assert ',' in ExpectedCell(rec, 0) by {
      assert "1,5"[1] == ',';
    }
    PreprocessFieldCount(rec);
  }
}

=== FILE: image.dfy ===
/** The `sollytch-image` chaincode (sollytch-image/main.go): an insert-once store of
    image hashes, each kept under its image key as the JSON of `{key, hashData}`, with
    the contract API's dispatch of its four methods; and the two JavaScript readers of
    what `GetImage` returns, `getImage` in client/teste.js and `queryImage` in
    client/resources/standalone_client.js. */
module ImageLedger {
  import opened Wrappers
  import opened Utf8
  import opened JsonString
  import Features

  datatype ImageAsset = ImageAsset(key: string, hashData: string)

  /** The ledger: the bytes stored under each key. */
  type ImageState = map<string, seq<byte>>

  datatype ImageError =
    | EmptyKey
    | EmptyHash
    | AlreadyExists
    | NotFound
    | BadJson
    | UnknownFunction(name: string)
    | WrongArgumentCount(expected: nat, got: nat)

  const KeyOpen: string := "{\"key\":"
  const HashOpen: string := ",\"hashData\":"

  /** The JSON text json.Marshal writes for an asset: its fields in declaration order,
      under their JSON names, without white space. */
  function AssetJson(a: ImageAsset): string
  {
    KeyOpen + Quote(a.key) + HashOpen + Quote(a.hashData) + "}"
  }

  /** A fixed opening text followed by a string literal: the literal's value and the
      text after it. */
  function ParseField(open: string, t: string): Option<(string, string)>
  {
    if |t| < |open| || t[..|open|] != open then None else ParseString(t[|open|..])
  }

  /** Reading an asset back from JSON text of the shape json.Marshal writes. */
  function ParseAssetJson(t: string): Option<ImageAsset>
  {
    match ParseField(KeyOpen, t)
    case None => None
    case Some((k, r1)) =>
      match ParseField(HashOpen, r1)
      case None => None
      case Some((h, r2)) => if r2 == "}" then Some(ImageAsset(k, h)) else None
  }

  /** json.Marshal of an asset: the UTF-8 bytes of its JSON text. */
  function Marshal(a: ImageAsset): seq<byte>
  {
    Encode(AssetJson(a))
  }

  /** json.Unmarshal into an asset. */
  function Unmarshal(bs: seq<byte>): Option<ImageAsset>
  {
    match Decode(bs)
    case None => None
    case Some(t) => ParseAssetJson(t)
  }

  lemma ParseFieldRoundTrip(open: string, v: string, rest: string)
    ensures ParseField(open, open + Quote(v) + rest) == Some((v, rest))
  {
    var t := open + Quote(v) + rest;
    assert t[..|open|] == open;
    assert t[|open|..] == Quote(v) + rest;
    ParseQuote(v, rest);
  }

  lemma ParseAssetJsonRoundTrip(a: ImageAsset)
    ensures ParseAssetJson(AssetJson(a)) == Some(a)
  {
    var tail := HashOpen + Quote(a.hashData) + "}";
    assert AssetJson(a) == KeyOpen + Quote(a.key) + tail;
    ParseFieldRoundTrip(KeyOpen, a.key, tail);
    ParseFieldRoundTrip(HashOpen, a.hashData, "}");
  }

  /** Round trip: json.Unmarshal reads back every asset json.Marshal writes. */
  lemma MarshalRoundTrip(a: ImageAsset)
    ensures Unmarshal(Marshal(a)) == Some(a)
  {
    DecodeEncode(AssetJson(a));
    ParseAssetJsonRoundTrip(a);
  }

  /** `ImageExists`: whether anything is stored under the key. */
  function ImageExists(st: ImageState, key: string): (exists_: bool)
    ensures exists_ <==> key in st
  {
    key in st
  }

  /** `StoreImage`: refuses an empty key, an empty hash and a key already taken;
      otherwise writes the asset's JSON under the key and nothing else. */
  function StoreImage(st: ImageState, key: string, hashData: string): (r: Result<ImageState, ImageError>)
    ensures key == "" ==> r == Failure(EmptyKey)
    ensures key != "" && hashData == "" ==> r == Failure(EmptyHash)
    ensures key != "" && hashData != "" && key in st ==> r == Failure(AlreadyExists)
    ensures r.Success? <==> key != "" && hashData != "" && key !in st
    ensures r.Success? ==> r.value.Keys == st.Keys + {key}
    ensures r.Success? ==> forall k :: k in st ==> r.value[k] == st[k]
    ensures r.Success? ==> Unmarshal(r.value[key]) == Some(ImageAsset(key, hashData))
  {
    if key == "" then Failure(EmptyKey)
    else if hashData == "" then Failure(EmptyHash)
    else if ImageExists(st, key) then Failure(AlreadyExists)
    else
      MarshalRoundTrip(ImageAsset(key, hashData));
      Success(st[key := Marshal(ImageAsset(key, hashData))])
  }

  /** `GetImage`: the stored bytes themselves, not decoded. */
  function GetImage(st: ImageState, key: string): (r: Result<seq<byte>, ImageError>)
    ensures key == "" ==> r == Failure(EmptyKey)
    ensures key != "" && key !in st ==> r == Failure(NotFound)
    ensures r.Success? <==> key != "" && key in st
    ensures r.Success? ==> r.value == st[key]
  {
    if key == "" then Failure(EmptyKey)
    else if key !in st then Failure(NotFound)
    else Success(st[key])
  }

  /** `GetImageAsset`: what `GetImage` returns, decoded as an asset. */
  function GetImageAsset(st: ImageState, key: string): (r: Result<ImageAsset, ImageError>)
    ensures GetImage(st, key).Failure? ==> r == Failure(GetImage(st, key).error)
    ensures GetImage(st, key).Success? ==> (r.Success? <==> Unmarshal(st[key]).Some?)
    ensures r.Success? ==> r.value == Unmarshal(st[key]).value
  {
    var bytes :- GetImage(st, key);
    match Unmarshal(bytes)
    case None => Failure(BadJson)
    case Some(a) => Success(a)
  }

  /** The transaction functions this contract exposes, with their argument counts:
      its four exported methods. The contract API rejects any other name, and any call
      with a different number of string arguments, before a method runs. */
  function ImageArity(name: string): Option<nat>
  {
    if name == "StoreImage" then Some(2)
    else if name == "GetImage" then Some(1)
    else if name == "GetImageAsset" then Some(1)
    else if name == "ImageExists" then Some(1)
    else None
  }

  /** A transaction as the contract API runs it on this chaincode: an unknown name or a
      wrong number of arguments is refused; otherwise the named method runs. Only
      StoreImage writes; the readers leave the ledger as it was. */
  function SubmitImage(st: ImageState, name: string, args: seq<string>): (r: Result<ImageState, ImageError>)
    ensures ImageArity(name).None? ==> r == Failure(UnknownFunction(name))
    ensures ImageArity(name).Some? && ImageArity(name).value != |args| ==>
      r == Failure(WrongArgumentCount(ImageArity(name).value, |args|))
    ensures r.Success? ==> ImageArity(name) == Some(|args|)
    ensures ImageArity(name) == Some(|args|) && name == "StoreImage" ==> r == StoreImage(st, args[0], args[1])
    ensures ImageArity(name) == Some(|args|) && name == "GetImage" ==>
      (r.Success? <==> GetImage(st, args[0]).Success?) && (r.Success? ==> r.value == st)
    ensures ImageArity(name) == Some(|args|) && name == "GetImageAsset" ==>
      (r.Success? <==> GetImageAsset(st, args[0]).Success?) && (r.Success? ==> r.value == st)
    ensures ImageArity(name) == Some(|args|) && name == "ImageExists" ==> r == Success(st)
  {
    match ImageArity(name)
    case None => Failure(UnknownFunction(name))
    case Some(n) =>
      if n != |args| then Failure(WrongArgumentCount(n, |args|))
      else if name == "StoreImage" then StoreImage(st, args[0], args[1])
      else if name == "GetImage" then
        var _ :- GetImage(st, args[0]);
        Success(st)
      else if name == "GetImageAsset" then
        var _ :- GetImageAsset(st, args[0]);
        Success(st)
      else
        Success(st)
  }

  /** The `sollytch-chain` functions StoreTest and QueryTest are not functions of this
      contract: called here, whatever the arguments, they are refused by name. */
  lemma ChainFunctionsUnknown(st: ImageState, args: seq<string>)
    ensures SubmitImage(st, "StoreTest", args) == Failure(UnknownFunction("StoreTest"))
    ensures SubmitImage(st, "QueryTest", args) == Failure(UnknownFunction("QueryTest"))
  {
    assert |"StoreTest"| == |"QueryTest"| == 9;
    assert |"StoreImage"| == 10 && |"GetImage"| == 8 && |"GetImageAsset"| == 13 && |"ImageExists"| == 11;
  }

  /** What every value of a ledger written only by StoreImage satisfies: it decodes to
      an asset naming its own key and holding a non-empty hash. */
  ghost predicate WellFormed(st: ImageState)
  {
    forall k :: k in st ==> Unmarshal(st[k]).Some? && Unmarshal(st[k]).value.key == k && Unmarshal(st[k]).value.hashData != ""
  }

  lemma StoreImagePreservesWellFormed(st: ImageState, key: string, hashData: string)
    requires WellFormed(st)
    requires StoreImage(st, key, hashData).Success?
    ensures WellFormed(StoreImage(st, key, hashData).value)
  {
  }

  /** Round trip: after storing a hash, its key reads back the asset stored, and the
      other keys read back as before. */
  lemma StoreThenGetAsset(st: ImageState, key: string, hashData: string)
    requires StoreImage(st, key, hashData).Success?
    ensures var st' := StoreImage(st, key, hashData).value;
      && ImageExists(st', key)
      && GetImageAsset(st', key) == Success(ImageAsset(key, hashData))
      && (forall k :: k != key ==> GetImage(st', k) == GetImage(st, k))
  {
  }

  /** Never an overwrite: a key stored once cannot be stored again. */
  lemma StoreImageOnce(st: ImageState, key: string, hashData: string, hashData2: string)
    requires StoreImage(st, key, hashData).Success?
    ensures StoreImage(StoreImage(st, key, hashData).value, key, hashData2).Failure?
  {
  }

  /** In a well-formed ledger every stored key reads back an asset under that key. */
  lemma WellFormedAssetsReadBack(st: ImageState, key: string)
    requires WellFormed(st) && key != "" && key in st
    ensures GetImageAsset(st, key).Success?
    ensures GetImageAsset(st, key).value.key == key && GetImageAsset(st, key).value.hashData != ""
  {
  }

  /** The object JSON.parse builds from an asset's JSON text. */
  function JsObject(a: ImageAsset): (o: Features.Record)
    ensures o.Keys == {"key", "hashData"}
  {
    map["key" := Features.Str(a.key), "hashData" := Features.Str(a.hashData)]
  }

  /** `getImage` in client/teste.js as written: each byte becomes one character, the
      text is parsed, and the property `HashData` is read. None is `undefined`; a parse
      failure is caught and answers `null`. */
  function TesteGetImage(raw: seq<byte>): (r: Option<Features.Value>)
  {
    match ParseAssetJson(Latin1(raw))
    case None => Some(Features.Null)
    case Some(a) => Features.Lookup(JsObject(a), "HashData")
  }

  /** `queryImage` in client/resources/standalone_client.js: the bytes are decoded as
      UTF-8 and parsed, and a present, non-empty `hashData` is returned as a string;
      every failure is caught and answers `null`. */
  function QueryImage(raw: seq<byte>): (r: Option<Features.Value>)
    ensures r.Some?
    ensures r.value.Str? ==> Unmarshal(raw).Some? && r.value.s == Unmarshal(raw).value.hashData && r.value.s != ""
  {
    match Decode(raw)
    case None => Some(Features.Null)
    case Some(text) =>
      match ParseAssetJson(text)
      case None => Some(Features.Null)
      case Some(a) => if a.hashData == "" then Some(Features.Null) else Some(Features.Str(a.hashData))
  }

  /** teste.js reads a property the chaincode never writes: whatever a ledger written
      by StoreImage returns from `GetImage`, `getImage` answers `undefined` or `null`,
      never a hash. */
  lemma TesteGetImageNeverReturnsHash(st: ImageState, key: string)
    requires WellFormed(st) && GetImage(st, key).Success?
    ensures var answer := TesteGetImage(GetImage(st, key).value);
      answer == None || answer == Some(Features.Null)
  {
  }

  /** For an image whose key and hash are ASCII (a hexadecimal digest, say), teste.js
      parses the stored JSON successfully and still answers `undefined`. */
  lemma TesteGetImageIsUndefined(st: ImageState, key: string, hashData: string)
    requires StoreImage(st, key, hashData).Success?
    requires AllAscii(key) && AllAscii(hashData)
    ensures var st' := StoreImage(st, key, hashData).value;
      GetImage(st', key).Success? && TesteGetImage(GetImage(st', key).value) == None
  {
    var a := ImageAsset(key, hashData);
    AssetJsonAscii(a);
    Latin1OfEncode(AssetJson(a));
    ParseAssetJsonRoundTrip(a);
  }

  lemma AssetJsonAscii(a: ImageAsset)
    requires AllAscii(a.key) && AllAscii(a.hashData)
    ensures AllAscii(AssetJson(a))
  {
    EscapeAllAscii(a.key);
    EscapeAllAscii(a.hashData);
    assert AllAscii(KeyOpen) && AllAscii(HashOpen) && AllAscii("\"") && AllAscii("}");
    AllAsciiConcat("\"", EscapeAll(a.key));
    AllAsciiConcat("\"" + EscapeAll(a.key), "\"");
    AllAsciiConcat("\"", EscapeAll(a.hashData));
    AllAsciiConcat("\"" + EscapeAll(a.hashData), "\"");
    AllAsciiConcat(KeyOpen, Quote(a.key));
    AllAsciiConcat(KeyOpen + Quote(a.key), HashOpen);
    AllAsciiConcat(KeyOpen + Quote(a.key) + HashOpen, Quote(a.hashData));
    AllAsciiConcat(KeyOpen + Quote(a.key) + HashOpen + Quote(a.hashData), "}");
  }

  /** The reader the other client uses returns the stored hash of every image. */
  lemma QueryImageReturnsHash(st: ImageState, key: string, hashData: string)
    requires StoreImage(st, key, hashData).Success?
    ensures var st' := StoreImage(st, key, hashData).value;
      GetImage(st', key).Success? && QueryImage(GetImage(st', key).value) == Some(Features.Str(hashData))
  {
    var a := ImageAsset(key, hashData);
    DecodeEncode(AssetJson(a));
    ParseAssetJsonRoundTrip(a);
  }
}

=== FILE: json.dfy ===
/** JSON string literals as Go's encoding/json writes them (json.Marshal, with its
    default HTML-safe escaping) and as a JSON parser reads them back. */
module JsonString {
  import opened Wrappers
  import opened Utf8

  const HexDigits: string := "0123456789abcdef"

  /** The lower-case hexadecimal digit Go's encoder writes for `d`. */
  function HexDigit(d: nat): char
    requires d < 16
  {
    HexDigits[d]
  }

  predicate IsHex(c: char)
  {
    ('0' <= c <= '9') || ('a' <= c <= 'f') || ('A' <= c <= 'F')
  }

  function HexValue(c: char): (d: nat)
    requires IsHex(c)
    ensures d < 16
  {
    if '0' <= c <= '9' then c as int - '0' as int
    else if 'a' <= c <= 'f' then c as int - 'a' as int + 10
    else c as int - 'A' as int + 10
  }

  lemma HexDigitValue(d: nat)
    requires d < 16
    ensures IsHex(HexDigit(d)) && HexValue(HexDigit(d)) == d
    ensures IsAscii(HexDigit(d))
  {
    assert HexDigits == ['0', '1', '2', '3', '4', '5', '6', '7', '8', '9', 'a', 'b', 'c', 'd', 'e', 'f'];
  }

  /** How Go's encoder writes one character inside a string literal: the quote and the
      backslash behind a backslash, five control characters by their short escapes, the
      other control characters and the HTML-sensitive `<`, `>`, `&` as \u00XX, the line
      and paragraph separators U+2028 and U+2029 as \u2028 and \u2029, and every other
      character as itself. */
  function Escape(c: char): (e: string)
    ensures |e| >= 1 && e[0] != '"'
  {
    var n := c as int;
    if c == '"' then "\\\""
    else if c == '\\' then "\\\\"
    else if c == '\U{0008}' then "\\b"
    else if c == '\U{000C}' then "\\f"
    else if c == '\n' then "\\n"
    else if c == '\r' then "\\r"
    else if c == '\t' then "\\t"
    else if n < 0x20 || c == '<' || c == '>' || c == '&' then "\\u00" + [HexDigit(n / 16), HexDigit(n % 16)]
    else if c == '\U{2028}' || c == '\U{2029}' then "\\u202" + [HexDigit(n % 16)]
    else [c]
  }

  function EscapeAll(s: string): string
  {
    if |s| == 0 then "" else Escape(s[0]) + EscapeAll(s[1..])
  }

  /** A string as a JSON string literal. */
  function Quote(s: string): string
  {
    "\"" + EscapeAll(s) + "\""
  }

  /** The character one escape or plain character at the start of `s` stands for, and
      how many characters it takes; None where a JSON string cannot continue with `s`
      (a quote, a raw control character, a bad escape). A \u escape naming a surrogate
      is refused: surrogate pairs are never written by the encoder above. */
  function Unescape(s: string): (r: Option<(char, nat)>)
    ensures r.Some? ==> 1 <= r.value.1 <= |s|
  {
    if |s| == 0 || s[0] == '"' || (s[0] as int) < 0x20 then None
    else if s[0] != '\\' then Some((s[0], 1))
    else if |s| < 2 then None
    else
      var e := s[1];
      if e == '"' then Some(('"', 2))
      else if e == '\\' then Some(('\\', 2))
      else if e == '/' then Some(('/', 2))
      else if e == 'b' then Some(('\U{0008}', 2))
      else if e == 'f' then Some(('\U{000C}', 2))
      else if e == 'n' then Some(('\n', 2))
      else if e == 'r' then Some(('\r', 2))
      else if e == 't' then Some(('\t', 2))
      else if e == 'u' && |s| >= 6 && IsHex(s[2]) && IsHex(s[3]) && IsHex(s[4]) && IsHex(s[5]) then
        var v := HexValue(s[2]) * 4096 + HexValue(s[3]) * 256 + HexValue(s[4]) * 16 + HexValue(s[5]);
        if IsScalar(v) then Some((v as char, 6)) else None
      else None
  }

  /** The body of a string literal up to its closing quote: the characters it stands
      for and the text after the quote. */
  function ParseChars(s: string): (r: Option<(string, string)>)
    ensures r.Some? ==> |r.value.1| < |s|
    decreases |s|
  {
    if |s| == 0 then None
    else if s[0] == '"' then Some(("", s[1..]))
    else match Unescape(s)
      case None => None
      case Some((c, n)) =>
        match ParseChars(s[n..])
        case None => None
        case Some((d, rest)) => Some(([c] + d, rest))
  }

  /** A string literal at the start of `s`: its value and the text after it. */
  function ParseString(s: string): (r: Option<(string, string)>)
    ensures r.Some? ==> |r.value.1| < |s|
  {
    if |s| == 0 || s[0] != '"' then None else ParseChars(s[1..])
  }

  lemma UnescapeShort(c: char, t: string)
    requires c in {'"', '\\', '\U{0008}', '\U{000C}', '\n', '\r', '\t'}
    ensures Unescape(Escape(c) + t) == Some((c, 2))
  {
  }

  lemma UnescapeHex2(c: char, t: string)
    requires (c as int) < 0x20 || c == '<' || c == '>' || c == '&'
    requires c !in {'\U{0008}', '\U{000C}', '\n', '\r', '\t'}
    ensures Unescape(Escape(c) + t) == Some((c, 6))
  {
    var n := c as int;
    var s := Escape(c) + t;
    HexDigitValue(0);
    HexDigitValue(n / 16);
    HexDigitValue(n % 16);
    assert s[2] == '0' && s[3] == '0' && s[4] == HexDigit(n / 16) && s[5] == HexDigit(n % 16);
  }

  lemma UnescapeLineSeparator(c: char, t: string)
    requires c == '\U{2028}' || c == '\U{2029}'
    ensures Unescape(Escape(c) + t) == Some((c, 6))
  {
    var n := c as int;
    var s := Escape(c) + t;
    HexDigitValue(2);
    HexDigitValue(0);
    HexDigitValue(n % 16);
    assert s[2] == '2' && s[3] == '0' && s[4] == '2' && s[5] == HexDigit(n % 16);
  }

  /** Reading an escaped character gives the character back, and says how much of the
      text its escape took. */
  lemma UnescapeEscape(c: char, t: string)
    ensures Unescape(Escape(c) + t) == Some((c, |Escape(c)|))
  {
    var n := c as int;
    if c in {'"', '\\', '\U{0008}', '\U{000C}', '\n', '\r', '\t'} {
      UnescapeShort(c, t);
    } else if n < 0x20 || c == '<' || c == '>' || c == '&' {
      UnescapeHex2(c, t);
    } else if c == '\U{2028}' || c == '\U{2029}' {
      UnescapeLineSeparator(c, t);
    }
  }

  /** The escaped body followed by a closing quote parses back to the string. */
  lemma {:induction false} ParseEscaped(s: string, rest: string)
    ensures ParseChars(EscapeAll(s) + ("\"" + rest)) == Some((s, rest))
  {
    if |s| == 0 {
      assert EscapeAll(s) + ("\"" + rest) == "\"" + rest;
    } else {
      var t := EscapeAll(s[1..]) + ("\"" + rest);
      assert EscapeAll(s) + ("\"" + rest) == Escape(s[0]) + t;
      ParseCharsEscape(s[0], t);
      ParseEscaped(s[1..], rest);
      assert [s[0]] + s[1..] == s;
    }
  }

  /** One escaped character followed by more of a string literal: the character, then
      whatever the rest parses to. */
  lemma ParseCharsEscape(c: char, t: string)
    ensures ParseChars(Escape(c) + t) ==
      match ParseChars(t)
      case None => None
      case Some((d, rest)) => Some(([c] + d, rest))
  {
    var e := Escape(c);
    UnescapeEscape(c, t);
    assert (e + t)[|e|..] == t;
  }

  /** Round trip: a quoted string parses back to itself, leaving what follows it. */
  lemma ParseQuote(s: string, rest: string)
    ensures ParseString(Quote(s) + rest) == Some((s, rest))
  {
    assert Quote(s) + rest == "\"" + (EscapeAll(s) + ("\"" + rest));
    ParseEscaped(s, rest);
  }

  /** The escapes of ASCII characters are ASCII. */
  lemma EscapeAscii(c: char)
    requires IsAscii(c)
    ensures AllAscii(Escape(c))
  {
    var n := c as int;
    if c in {'"', '\\', '\U{0008}', '\U{000C}', '\n', '\r', '\t'} {
    } else if n < 0x20 || c == '<' || c == '>' || c == '&' {
      HexDigitValue(n / 16);
      HexDigitValue(n % 16);
      assert Escape(c) == "\\u00" + [HexDigit(n / 16), HexDigit(n % 16)];
    } else {
      assert Escape(c) == [c];
    }
  }

  lemma {:induction false} EscapeAllAscii(s: string)
    requires AllAscii(s)
    ensures AllAscii(EscapeAll(s))
  {
    if |s| > 0 {
      EscapeAscii(s[0]);
      EscapeAllAscii(s[1..]);
      var e := Escape(s[0]);
      var t := EscapeAll(s[1..]);
      assert forall i :: |e| <= i < |e| + |t| ==> (e + t)[i] == t[i - |e|];
    }
  }
}

=== FILE: pipeline.dfy ===
/** How the JavaScript clients drive the chaincode: the argument lists they submit, and
    what the chaincode's CSV row parser `parseCSVToTestRecord` would make of the row the
    feature encoder emits. */
module Pipeline {
  import opened Wrappers
  import opened Text
  import Features
  import Chain
  import ImageLedger

  datatype Submission = Submission(name: string, args: seq<string>)

  /** `storeTest` in client/resources/standalone_client.js and `invoke` in
      client/clientbkp.js: the test id, the record's JSON, then the encoded feature
      row. */
  function StoreTestSubmission(testId: string, jsonStr: string, rec: Features.Record): Submission
  {
    Submission("StoreTest", [testId, jsonStr, Features.Preprocess(rec)])
  }

  /** `invoke` in client/resources/client.js as written: the test id and the JSON only. */
  function ClientJsInvoke(jsonString: string, testId: string): Submission
  {
    Submission("StoreTest", [testId, jsonString])
  }

  function SubmitAs<M>(st: Chain.WorldState, sub: Submission, txTime: string, o: Chain.Oracles<M>): Result<Chain.WorldState, Chain.ChainError>
  {
    Chain.Submit(st, sub.name, sub.args, txTime, o)
  }

  /** The three-argument clients reach StoreTest with the id as the key, the JSON as
      the record and the encoded row as the prediction input. */
  lemma StoreTestSubmissionReachesStoreTest<M>(st: Chain.WorldState, testId: string, jsonStr: string,
                                               rec: Features.Record, txTime: string, o: Chain.Oracles<M>)
    ensures SubmitAs(st, StoreTestSubmission(testId, jsonStr, rec), txTime, o) ==
      Chain.StoreTest(st, testId, jsonStr, Features.Preprocess(rec), txTime, o)
  {
  }

  /** client/resources/client.js submits two arguments to the three-parameter StoreTest,
      so the contract API refuses every such call and the ledger never changes. */
  lemma ClientJsInvokeRejected<M>(st: Chain.WorldState, jsonString: string, testId: string,
                                  txTime: string, o: Chain.Oracles<M>)
    ensures SubmitAs(st, ClientJsInvoke(jsonString, testId), txTime, o) == Failure(Chain.WrongArgumentCount(3, 2))
  {
  }

  /** client/teste.js builds the same StoreTest submission in `invoke`, and evaluates
      QueryTest in `query`, but on a contract of the `sollytch-image` chaincode, which
      defines neither: both are refused as unknown functions and the image ledger is
      left as it was. */
  lemma TesteCallsRefused(st: ImageLedger.ImageState, testId: string, jsonStr: string, rec: Features.Record)
    ensures var sub := StoreTestSubmission(testId, jsonStr, rec);
      ImageLedger.SubmitImage(st, sub.name, sub.args) == Failure(ImageLedger.UnknownFunction("StoreTest"))
    ensures ImageLedger.SubmitImage(st, "QueryTest", [testId]) == Failure(ImageLedger.UnknownFunction("QueryTest"))
  {
    ImageLedger.ChainFunctionsUnknown(st, StoreTestSubmission(testId, jsonStr, rec).args);
    ImageLedger.ChainFunctionsUnknown(st, [testId]);
  }

  /** `query("GetAllTests", ...)` in client/resources/client.js names a function the
      chaincode does not define. */
  lemma GetAllTestsIsUnknown<M>(st: Chain.WorldState, txTime: string, o: Chain.Oracles<M>)
    ensures Chain.Submit(st, "GetAllTests", [], txTime, o) == Failure(Chain.UnknownFunction("GetAllTests"))
  {
  }

  /** The row the encoder emits is one `parseCSVToTestRecord` accepts whenever no value
      holds a comma (no transaction calls that parser; this is what it would read).
      Every number is read from its column's reference cell, and the categorical cells
      read back as the encoder meant: the control line as the boolean it was (false
      when absent or null), the internal control as its label code. */
  lemma EncodedRowParses(rec: Features.Record, parseFloat: string -> Option<real>)
    requires Features.CommaFree(rec)
    ensures Chain.ParseCsvRow(Features.Preprocess(rec), parseFloat).Success?
    ensures var m := Chain.ParseCsvRow(Features.Preprocess(rec), parseFloat).value;
      && m.controleInternoResult in {"0", "1", "2"}
      && (m.controleInternoResult == "2" <==> Features.PropertyKey(Features.Lookup(rec, Features.ControleInternoResult)) == "ok")
      && (m.controleInternoResult == "1" <==> Features.PropertyKey(Features.Lookup(rec, Features.ControleInternoResult)) == "fail")
      && (Features.Lookup(rec, Features.ControlLineOk) == Some(Features.Bool(true)) ==> m.controlLineOk)
      && (Features.Lookup(rec, Features.ControlLineOk) == Some(Features.Bool(false)) ==> !m.controlLineOk)
      && (Features.Lookup(rec, Features.ControlLineOk) in {None, Some(Features.Null)} ==> !m.controlLineOk)
      && (forall i | 0 <= i < 19 && i != 2 :: Chain.RealField(m, i) == Chain.ToFloat(Features.ExpectedCell(rec, i), parseFloat))
      && m.expiryDaysLeft == Chain.Atoi(Features.ExpectedCell(rec, 2))
  {
    Features.CommaFreeCells(rec);
    Features.PreprocessSplitsIntoColumns(rec);
    var f := Split(Features.Preprocess(rec), ',');
    assert f[19] == Features.ExpectedCell(rec, 19);
    assert f[20] == Features.ExpectedCell(rec, 20);
    ControlLineCellReadsBack(rec);
    ControleInternoCellValues(rec);
  }

  /** The numbers of an encoded row, as the CSV parser reads them back: a number the
      record holds is parsed from its own text; a missing or null coordinate is the
      empty cell, and any other missing or null number is the cell "0" (which Atoi
      reads as 0). */
  lemma EncodedNumbersReadBack(rec: Features.Record, parseFloat: string -> Option<real>)
    requires Features.CommaFree(rec)
    ensures Chain.ParseCsvRow(Features.Preprocess(rec), parseFloat).Success?
    ensures var m := Chain.ParseCsvRow(Features.Preprocess(rec), parseFloat).value;
      && (forall i | 0 <= i < 19 && i != 2 ::
            var v := Features.Lookup(rec, Features.Columns[i]);
            && (v.Some? && v.value.Num? ==> Chain.RealField(m, i) == Chain.ToFloat(v.value.text, parseFloat))
            && (v in {None, Some(Features.Null)} ==> Chain.RealField(m, i) == Chain.ToFloat(if i < 2 then "" else "0", parseFloat)))
      && (var v := Features.Lookup(rec, "expiry_days_left");
          && (v.Some? && v.value.Num? ==> m.expiryDaysLeft == Chain.Atoi(v.value.text))
          && (v in {None, Some(Features.Null)} ==> m.expiryDaysLeft == 0))
  {
    EncodedRowParses(rec, parseFloat);
    var m := Chain.ParseCsvRow(Features.Preprocess(rec), parseFloat).value;
    forall i | 0 <= i < 19 && i != 2
      ensures var v := Features.Lookup(rec, Features.Columns[i]);
        && (v.Some? && v.value.Num? ==> Chain.RealField(m, i) == Chain.ToFloat(v.value.text, parseFloat))
        && (v in {None, Some(Features.Null)} ==> Chain.RealField(m, i) == Chain.ToFloat(if i < 2 then "" else "0", parseFloat))
    {
      Features.NumberCellText(rec, i);
    }
    ExpiryReadBack(rec, m.expiryDaysLeft);
  }

  /** The expiry cell, read by Atoi. */
  lemma ExpiryReadBack(rec: Features.Record, expiry: int)
    requires expiry == Chain.Atoi(Features.ExpectedCell(rec, 2))
    ensures var v := Features.Lookup(rec, "expiry_days_left");
      && (v.Some? && v.value.Num? ==> expiry == Chain.Atoi(v.value.text))
      && (v in {None, Some(Features.Null)} ==> expiry == 0)
  {
    Features.NumberCellText(rec, 2);
    assert Features.Columns[2] == "expiry_days_left";
    ZeroCellReadsZero();
  }

  lemma ZeroCellReadsZero()
    ensures Chain.Atoi("0") == 0
  {
    assert "0" == Decimal(0);
    Chain.AtoiRoundTrip(0);
  }

  lemma ControlLineCellReadsBack(rec: Features.Record)
    ensures var v := Features.Lookup(rec, Features.ControlLineOk);
      && (v == Some(Features.Bool(true)) ==> Chain.ToBool(Features.ExpectedCell(rec, 19)))
      && (v == Some(Features.Bool(false)) ==> !Chain.ToBool(Features.ExpectedCell(rec, 19)))
      && (v in {None, Some(Features.Null)} ==> !Chain.ToBool(Features.ExpectedCell(rec, 19)))
  {
    Features.CategoricalColumns();
    assert Features.KindOf(19) == Features.ControlLine;
  }

  lemma ControleInternoCellValues(rec: Features.Record)
    ensures var key := Features.PropertyKey(Features.Lookup(rec, Features.ControleInternoResult));
      && Features.ExpectedCell(rec, 20) in {"0", "1", "2"}
      && (Features.ExpectedCell(rec, 20) == "2" <==> key == "ok")
      && (Features.ExpectedCell(rec, 20) == "1" <==> key == "fail")
  {
    Features.CategoricalColumns();
    assert Features.KindOf(20) == Features.ControleInterno;
  }
}

=== FILE: response.dfy ===
/** The ledger-response decoder of the JavaScript clients of the `sollytch-chain`
    chaincode: `query` in client/resources/client.js and client/clientbkp.js, and
    `queryTest` in client/resources/standalone_client.js. A response that arrives as
    the decimal text of a byte array ("123,34,...") is turned back into the bytes it
    lists and decoded again before JSON.parse sees it. */
module ResponseDecoder {
  import opened Wrappers
  import opened Text
  import opened Utf8

  /** Decimal digits only (possibly none). */
  predicate AllDigits(t: string)
  {
    forall i :: 0 <= i < |t| ==> IsDigit(t[i])
  }

  /** The pattern `^\d+(,\d+)*$`: one or more digit groups separated by single commas.
      `Split` always yields at least one field, so the pattern holds exactly when every
      comma-separated field is a non-empty run of digits. */
  predicate IsByteListText(s: string)
  {
    var fields := Split(s, ',');
    forall i :: 0 <= i < |fields| ==> IsDigitGroup(fields[i])
  }

  /** The regular expression read as a grammar: a text matches it exactly when it is
      the comma-join of one or more digit groups. */
  lemma ByteListGrammar(s: string)
    ensures IsByteListText(s) <==>
      exists groups: seq<string> ::
        && |groups| >= 1
        && (forall i :: 0 <= i < |groups| ==> IsDigitGroup(groups[i]))
        && Join(groups, ',') == s
  {
    if IsByteListText(s) {
      JoinSplit(s, ',');
      assert Join(Split(s, ','), ',') == s;
    }
    forall groups: seq<string> |
      && |groups| >= 1
      && (forall i :: 0 <= i < |groups| ==> IsDigitGroup(groups[i]))
      && Join(groups, ',') == s
      ensures IsByteListText(s)
    {
      forall i | 0 <= i < |groups|
        ensures ',' !in groups[i]
      {
        assert IsDigitGroup(groups[i]);
      }
      SplitJoin(groups, ',');
    }
  }

  /** A prefix that the pattern has not yet rejected: every field so far except the
      last is a digit group, and the last (the group being read) is all digits. */
  predicate PrefixShape(p: string)
  {
    FieldsShape(Split(p, ','))
  }

  /** The same condition on the fields themselves. */
  predicate FieldsShape(fields: seq<string>)
    requires |fields| >= 1
  {
    && (forall i :: 0 <= i < |fields| - 1 ==> IsDigitGroup(fields[i]))
    && AllDigits(fields[|fields| - 1])
  }

  /** A character other than the comma extends the last field. */
  lemma FieldsShapeExtend(f: seq<string>, c: char)
    requires |f| >= 1
    ensures FieldsShape(f[..|f| - 1] + [f[|f| - 1] + [c]]) <==> FieldsShape(f) && IsDigit(c)
  {
    var g := f[..|f| - 1] + [f[|f| - 1] + [c]];
    assert forall i :: 0 <= i < |g| - 1 ==> g[i] == f[i];
    var last := f[|f| - 1];
    assert g[|g| - 1] == last + [c];
    assert AllDigits(last + [c]) <==> AllDigits(last) && IsDigit(c) by {
      assert (last + [c])[|last|] == c;
      assert forall i :: 0 <= i < |last| ==> (last + [c])[i] == last[i];
    }
  }

  /** A comma closes the last field and opens an empty one. */
  lemma FieldsShapeOpen(f: seq<string>)
    requires |f| >= 1
    ensures FieldsShape(f + [""]) <==> FieldsShape(f) && |f[|f| - 1]| > 0
  {
    var g := f + [""];
    assert forall i :: 0 <= i < |f| ==> g[i] == f[i];
  }

  /** How the fields change when one character is appended. */
  lemma SplitSnoc(p: string, c: char, sep: char)
    ensures var f := Split(p, sep);
            Split(p + [c], sep) ==
              if c == sep then f + [""] else f[..|f| - 1] + [f[|f| - 1] + [c]]
  {
    if c == sep {
      SplitSnocSeparator(p, sep);
    } else {
      SplitSnocOther(p, c, sep);
    }
  }

  /** Appending the separator opens a new, empty field. */
  lemma {:induction false} SplitSnocSeparator(p: string, sep: char)
    ensures Split(p + [sep], sep) == Split(p, sep) + [""]
  {
    if |p| == 0 {
      assert p + [sep] == [sep];
      assert [sep][1..] == "";
    } else {
      var q := p + [sep];
      assert q[0] == p[0] && q[1..] == p[1..] + [sep];
      SplitSnocSeparator(p[1..], sep);
      var f' := Split(p[1..], sep);
      if p[0] == sep {
        assert Split(q, sep) == [""] + (f' + [""]);
      } else {
        var g' := f' + [""];
        assert g'[0] == f'[0] && g'[1..] == f'[1..] + [""];
      }
    }
  }

  /** Appending any other character extends the last field. */
  lemma {:induction false} SplitSnocOther(p: string, c: char, sep: char)
    requires c != sep
    ensures var f := Split(p, sep);
            Split(p + [c], sep) == f[..|f| - 1] + [f[|f| - 1] + [c]]
  {
    if |p| == 0 {
      assert p + [c] == [c];
      assert [c][1..] == "";
      assert p == "";
      assert Split(p, sep) == [""];
      assert Split([c], sep) == [[c] + ""] + [""][1..];
      assert [c] + "" == "" + [c] == [c];
      assert Split([c], sep) == [[c]];
    } else {
      var q := p + [c];
      assert q[0] == p[0] && q[1..] == p[1..] + [c];
      SplitSnocOther(p[1..], c, sep);
      var f' := Split(p[1..], sep);
      var g' := Split(p[1..] + [c], sep);
      var f := Split(p, sep);
      if p[0] == sep {
        SnocHeadSeparator(f', g', c);
      } else {
        SnocHeadOther(p[0], f', g', c);
      }
    }
  }

  lemma SnocHeadSeparator(f': seq<string>, g': seq<string>, c: char)
    requires |f'| >= 1
    requires g' == f'[..|f'| - 1] + [f'[|f'| - 1] + [c]]
    ensures var f := [""] + f';
            [""] + g' == f[..|f| - 1] + [f[|f| - 1] + [c]]
  {
    var f := [""] + f';
    assert f[..|f| - 1] == [""] + f'[..|f'| - 1];
  }

  lemma SnocHeadOther(h: char, f': seq<string>, g': seq<string>, c: char)
    requires |f'| >= 1
    requires g' == f'[..|f'| - 1] + [f'[|f'| - 1] + [c]]
    ensures var f := [[h] + f'[0]] + f'[1..];
            [[h] + g'[0]] + g'[1..] == f[..|f| - 1] + [f[|f| - 1] + [c]]
  {
    var f := [[h] + f'[0]] + f'[1..];
    if |f'| > 1 {
      assert g'[0] == f'[0];
      assert g'[1..] == f'[1..|f'| - 1] + [f'[|f'| - 1] + [c]];
      assert f[..|f| - 1] == [[h] + f'[0]] + f'[1..|f'| - 1];
      assert f[|f| - 1] == f'[|f'| - 1];
    } else {
      assert g' == [f'[0] + [c]];
      assert f == [[h] + f'[0]];
      assert [h] + (f'[0] + [c]) == ([h] + f'[0]) + [c];
    }
  }

  /** Appending one character keeps a prefix acceptable exactly when the character is
      a digit, or a comma closing a non-empty group. */
  lemma PrefixShapeSnoc(p: string, c: char)
    ensures PrefixShape(p + [c]) <==>
      PrefixShape(p) && (IsDigit(c) || (c == ',' && |Split(p, ',')[|Split(p, ',')| - 1]| > 0))
  {
    SplitSnoc(p, c, ',');
    var f := Split(p, ',');
    if c != ',' {
      FieldsShapeExtend(f, c);
    } else {
      FieldsShapeOpen(f);
    }
  }

  /** The pattern holds of a whole text exactly when no character was rejected and the
      final group is not empty. */
  lemma ByteListByPrefix(s: string)
    ensures IsByteListText(s) <==>
      PrefixShape(s) && |Split(s, ',')[|Split(s, ',')| - 1]| > 0
  {
  }

  /** Every prefix of an acceptable text is acceptable. */
  lemma {:induction false} PrefixShapeMonotone(s: string, n: nat)
    requires n <= |s|
    ensures PrefixShape(s) ==> PrefixShape(s[..n])
    decreases |s| - n
  {
    if n < |s| {
      PrefixShapeMonotone(s, n + 1);
      assert s[..n + 1] == s[..n] + [s[n]];
      PrefixShapeSnoc(s[..n], s[n]);
    } else {
      assert s[..n] == s;
    }
  }

  /** An acceptable text consists of digits and commas only. */
  lemma {:induction false} PrefixShapeChars(s: string)
    requires PrefixShape(s)
    ensures forall k :: 0 <= k < |s| ==> IsDigit(s[k]) || s[k] == ','
  {
    if |s| > 0 {
      var p := s[..|s| - 1];
      assert s == p + [s[|s| - 1]];
      PrefixShapeSnoc(p, s[|s| - 1]);
      PrefixShapeChars(p);
      assert forall k :: 0 <= k < |p| ==> s[k] == p[k];
    }
  }

  /** The regular-expression test `/^\d+(,\d+)*$/.test(s)`, read left to right. */
  method MatchesByteList(s: string) returns (ok: bool)
    ensures ok <==> IsByteListText(s)
  {
    var i := 0;
    var groupLen := 0;
    ok := true;
    assert s[..0] == "";
    while i < |s| && ok
      invariant 0 <= i <= |s|
      invariant ok <==> PrefixShape(s[..i])
      invariant ok ==> groupLen == |Split(s[..i], ',')[|Split(s[..i], ',')| - 1]|
      invariant !ok ==> !PrefixShape(s)
    {
      assert s[..i + 1] == s[..i] + [s[i]];
      PrefixShapeSnoc(s[..i], s[i]);
      SplitSnoc(s[..i], s[i], ',');
      if IsDigit(s[i]) {
        groupLen := groupLen + 1;
      } else if s[i] == ',' && groupLen > 0 {
        groupLen := 0;
      } else {
        ok := false;
        PrefixShapeMonotone(s, i + 1);
      }
      i := i + 1;
    }
    if ok {
      assert s[..i] == s;
    }
    ByteListByPrefix(s);
    ok := ok && groupLen > 0;
  }

  /** `parseInt` of a digit group, then `Buffer.from`'s reduction of the number to one
      byte. */
  function TokenByte(t: string): byte
    requires AllDigits(t)
  {
    (DecimalValue(t) % 256) as byte
  }

  /** The bytes a byte-list text lists, in order: one per comma-separated token, each
      the token's decimal value reduced modulo 256. */
  function ByteListBytes(s: string): (bytes: seq<byte>)
    requires IsByteListText(s)
    ensures |bytes| == Count(s, ',') + 1 == |Split(s, ',')|
    ensures forall i | 0 <= i < |bytes| :: bytes[i] as int == DecimalValue(Split(s, ',')[i]) % 256
  {
    var fields := Split(s, ',');
    seq(|fields|, i requires 0 <= i < |fields| => TokenByte(fields[i]))
  }

  /** The text JSON.parse is handed, given the text the response decoded to: a trimmed
      byte list is replaced by the decoding of the bytes it lists; any other text goes
      through unchanged, untrimmed. `utf8` is Buffer's UTF-8 decoder. */
  function Reinterpret(text: string, utf8: seq<byte> -> string): (out: string)
    ensures !IsByteListText(Trim(text)) ==> out == text
  {
    var t := Trim(text);
    if IsByteListText(t) then utf8(ByteListBytes(t)) else text
  }

  /** The text a byte array is dumped as when it is stringified: its decimal values
      joined by commas. */
  function RenderByteList(bytes: seq<byte>): string
  {
    Join(seq(|bytes|, i requires 0 <= i < |bytes| => Decimal(bytes[i] as nat)), ',')
  }

  /** Round trip: a response dumped as a byte list is read back as exactly the bytes it
      dumps, so the decoder recovers the text those bytes encode. */
  lemma ReinterpretRecoversDump(bytes: seq<byte>, utf8: seq<byte> -> string)
    requires |bytes| >= 1
    ensures IsByteListText(RenderByteList(bytes))
    ensures ByteListBytes(RenderByteList(bytes)) == bytes
    ensures Reinterpret(RenderByteList(bytes), utf8) == utf8(bytes)
  {
    var groups := seq(|bytes|, i requires 0 <= i < |bytes| => Decimal(bytes[i] as nat));
    var s := Join(groups, ',');
    forall i | 0 <= i < |groups|
      ensures ',' !in groups[i]
    {
      assert IsDigitGroup(groups[i]);
    }
    SplitJoin(groups, ',');
    forall i | 0 <= i < |bytes|
      ensures TokenByte(groups[i]) == bytes[i]
    {
      DecimalRoundTrip(bytes[i] as nat);
    }
    NoSpaceTrim(s);
  }

  /** Digits and commas are not white space, so a byte list is its own trim. */
  lemma NoSpaceTrim(s: string)
    requires IsByteListText(s)
    ensures Trim(s) == s
  {
    forall k | 0 <= k < |s|
      ensures !IsJsSpace(s[k])
    {
      ByteListChars(s, k);
    }
  }

  /** Every character of a byte-list text is a digit or a comma. */
  lemma ByteListChars(s: string, k: nat)
    requires IsByteListText(s) && k < |s|
    ensures IsDigit(s[k]) || s[k] == ','
  {
    ByteListByPrefix(s);
    PrefixShapeChars(s);
  }

  /** White space around a byte-list response is ignored. */
  lemma SurroundingSpaceIgnored(pre: string, core: string, post: string, utf8: seq<byte> -> string)
    requires forall k :: 0 <= k < |pre| ==> IsJsSpace(pre[k])
    requires forall k :: 0 <= k < |post| ==> IsJsSpace(post[k])
    requires IsByteListText(core)
    ensures Reinterpret(pre + core + post, utf8) == utf8(ByteListBytes(core))
  {
    assert !IsDigitGroup(Split("", ',')[0]);
    assert |core| > 0;
    ByteListChars(core, 0);
    ByteListChars(core, |core| - 1);
    TrimPadded(pre, core, post);
  }

  /** Text that is not a byte list after trimming, such as a JSON document, reaches
      JSON.parse exactly as it arrived. */
  lemma JsonTextUntouched(text: string, utf8: seq<byte> -> string)
    requires exists k :: 0 <= k < |text| && !IsDigit(text[k]) && text[k] != ',' && !IsJsSpace(text[k])
    ensures Reinterpret(text, utf8) == text
  {
    var k :| 0 <= k < |text| && !IsDigit(text[k]) && text[k] != ',' && !IsJsSpace(text[k]);
    var t := Trim(text);
    TrimIsSlice(text);
    var i := LeadingSpace(text);
    assert i <= k < i + |t|;
    assert t[k - i] == text[k];
    if IsByteListText(t) {
      ByteListChars(t, k - i);
    }
  }

  /** The example of a dump cut short: "123,34" is read as the two bytes 123 and 34 (the
      characters `{"`), whatever JSON.parse then makes of them. */
  lemma PartialDumpIsReinterpreted(utf8: seq<byte> -> string)
    ensures Reinterpret("123,34", utf8) == utf8([123, 34])
  {
    var bytes: seq<byte> := [123, 34];
    ReinterpretRecoversDump(bytes, utf8);
    RenderExample();
  }

  /** A JSON document that is a bare integer is itself a byte list: "65" is decoded
      again from the single byte 65 before JSON.parse sees it. */
  lemma BareIntegerIsReinterpreted(utf8: seq<byte> -> string)
    ensures Reinterpret("65", utf8) == utf8([65])
  {
    var bytes: seq<byte> := [65];
    ReinterpretRecoversDump(bytes, utf8);
    assert DigitChar(6) == '6' && DigitChar(5) == '5';
    assert Decimal(6) == "6";
    assert Decimal(65) == Decimal(6) + [DigitChar(5)] == "65";
    assert bytes[0] as nat == 65;
    assert seq(|bytes|, i requires 0 <= i < |bytes| => Decimal(bytes[i] as nat)) == ["65"];
  }

  lemma DecimalExamples()
    ensures Decimal(123) == "123" && Decimal(34) == "34"
  {
    assert DigitChar(1) == '1' && DigitChar(2) == '2' && DigitChar(3) == '3' && DigitChar(4) == '4';
    assert Decimal(12) == "12";
  }

  lemma RenderExample()
    ensures RenderByteList([123, 34]) == "123,34"
  {
    var bytes: seq<byte> := [123, 34];
    DecimalExamples();
    assert seq(|bytes|, i requires 0 <= i < |bytes| => Decimal(bytes[i] as nat)) == ["123", "34"];
    assert Join(["123", "34"], ',') == "123" + [','] + "34";
  }

  /** Why a query response could not be turned into a value. */
  datatype QueryError =
    | LedgerError           // the evaluate call itself failed
    | NoResult              // an unsupported function name left the result undefined
    | MalformedResponse     // JSON.parse threw

  /** Decodes one response: the response's `toString('utf8')`, byte-list
      reinterpretation, then JSON.parse, whose failure is reported as
      MalformedResponse. `toText` is that `toString` call on the value the gateway
      returns; `utf8` is Buffer's UTF-8 decoder, used on the bytes a byte list lists. */
  function DecodeResponse<J>(raw: seq<byte>, toText: seq<byte> -> string, utf8: seq<byte> -> string,
                             parse: string -> Option<J>): (r: Result<J, QueryError>)
    ensures r.Success? <==> parse(Reinterpret(toText(raw), utf8)).Some?
    ensures r.Success? ==> r.value == parse(Reinterpret(toText(raw), utf8)).value
    ensures r.Failure? ==> r.error == MalformedResponse
  {
    match parse(Reinterpret(toText(raw), utf8))
    case Some(j) => Success(j)
    case None => Failure(MalformedResponse)
  }

  /** The gateway returns a Uint8Array, whose `toString` ignores the encoding argument
      and renders the decimal bytes joined by commas. With that rendering, every
      non-empty response is parsed as the text its bytes encode: the byte-list
      reinterpretation undoes the rendering exactly. */
  lemma ArrayResponseDecodes<J>(raw: seq<byte>, utf8: seq<byte> -> string, parse: string -> Option<J>)
    requires |raw| >= 1
    ensures parse(utf8(raw)).Some? ==> DecodeResponse(raw, RenderByteList, utf8, parse) == Success(parse(utf8(raw)).value)
    ensures parse(utf8(raw)).None? ==> DecodeResponse(raw, RenderByteList, utf8, parse) == Failure(MalformedResponse)
  {
    ReinterpretRecoversDump(raw, utf8);
  }

  /** An empty Uint8Array renders as the empty text, which is no byte list and goes to
      JSON.parse as it is. */
  lemma EmptyArrayResponse<J>(utf8: seq<byte> -> string, parse: string -> Option<J>)
    ensures parse("").Some? ==> DecodeResponse([], RenderByteList, utf8, parse) == Success(parse("").value)
    ensures parse("").None? ==> DecodeResponse([], RenderByteList, utf8, parse) == Failure(MalformedResponse)
  {
    assert RenderByteList([]) == "";
    assert Trim("") == "";
    assert Split("", ',')[0] == "";
    assert !IsByteListText(Trim(""));
    assert Reinterpret(RenderByteList([]), utf8) == "";
  }

  /** An evaluate call: a transaction name and its string arguments. */
  datatype Call = Call(name: string, args: seq<string>)

  /** The call `query(fcn, testID)` of client/resources/client.js makes, if any. */
  function QueryCall(fcn: string, testId: string): (c: Option<Call>)
    ensures fcn == "GetAllTests" <==> c == Some(Call("GetAllTests", []))
    ensures fcn == "QueryTest" <==> c == Some(Call("QueryTest", [testId]))
    ensures fcn != "GetAllTests" && fcn != "QueryTest" <==> c == None
  {
    if fcn == "GetAllTests" then Some(Call("GetAllTests", []))
    else if fcn == "QueryTest" then Some(Call("QueryTest", [testId]))
    else None
  }

  /** `query(fcn, testID)` of client/resources/client.js: dispatch, evaluate, decode.
      Nothing is caught, so every failure reaches the caller. `evaluate` is the
      gateway's evaluateTransaction, None standing for its failure. */
  function Query<J>(fcn: string, testId: string, evaluate: Call -> Option<seq<byte>>,
                    toText: seq<byte> -> string, utf8: seq<byte> -> string,
                    parse: string -> Option<J>): (r: Result<J, QueryError>)
    ensures QueryCall(fcn, testId) == None ==> r == Failure(NoResult)
    ensures QueryCall(fcn, testId).Some? && evaluate(QueryCall(fcn, testId).value) == None ==> r == Failure(LedgerError)
    ensures QueryCall(fcn, testId).Some? && evaluate(QueryCall(fcn, testId).value).Some? ==>
      r == DecodeResponse(evaluate(QueryCall(fcn, testId).value).value, toText, utf8, parse)
  {
    match QueryCall(fcn, testId)
    case None => Failure(NoResult)
    case Some(call) =>
      match evaluate(call)
      case None => Failure(LedgerError)
      case Some(raw) => DecodeResponse(raw, toText, utf8, parse)
  }

  /** `queryTest` of the standalone client and `query` of client/clientbkp.js: the
      same QueryTest decode, but every error is caught and logged, and the function
      then returns undefined. */
  function QueryTestCaught<J>(testId: string, evaluate: Call -> Option<seq<byte>>,
                              toText: seq<byte> -> string, utf8: seq<byte> -> string,
                              parse: string -> Option<J>): (r: Option<J>)
    ensures r.Some? <==> Query("QueryTest", testId, evaluate, toText, utf8, parse).Success?
    ensures r.Some? ==> r.value == Query("QueryTest", testId, evaluate, toText, utf8, parse).value
  {
    match Query("QueryTest", testId, evaluate, toText, utf8, parse)
    case Success(j) => Some(j)
    case Failure(_) => None
  }

  /** With the Uint8Array rendering, a stored record whose bytes are non-empty reaches
      `queryTest`'s caller as JSON.parse of their UTF-8 text. */
  lemma QueryTestReadsStoredText<J>(testId: string, evaluate: Call -> Option<seq<byte>>,
                                    utf8: seq<byte> -> string, parse: string -> Option<J>)
    requires evaluate(Call("QueryTest", [testId])).Some?
    requires |evaluate(Call("QueryTest", [testId])).value| >= 1
    ensures var raw := evaluate(Call("QueryTest", [testId])).value;
      QueryTestCaught(testId, evaluate, RenderByteList, utf8, parse) == parse(utf8(raw))
  {
    ArrayResponseDecodes(evaluate(Call("QueryTest", [testId])).value, utf8, parse);
  }
}

=== FILE: text.dfy ===
/** Character-level helpers shared by the JavaScript clients and the Go chaincode:
    splitting and joining on a separator, decimal digit groups and JavaScript's trim. */
module Text {

  /** Occurrences of `c` in `s`. */
  function Count(s: string, c: char): nat
  {
    if |s| == 0 then 0 else (if s[0] == c then 1 else 0) + Count(s[1..], c)
  }

  /** Splits `s` at every occurrence of `sep`, as Go's `strings.Split` and JavaScript's
      `String.prototype.split` do for a one-character separator: two adjacent separators
      give an empty field, and the empty string gives one empty field. */
  function Split(s: string, sep: char): (fields: seq<string>)
    ensures |fields| == Count(s, sep) + 1
    ensures forall i :: 0 <= i < |fields| ==> sep !in fields[i]
  {
    if |s| == 0 then [""]
    else
      var rest := Split(s[1..], sep);
      if s[0] == sep then [""] + rest
      else [[s[0]] + rest[0]] + rest[1..]
  }

  /** Joins `fields` with `sep` between neighbours, as JavaScript's `Array.prototype.join`
      and Go's `strings.Join` do. */
  function Join(fields: seq<string>, sep: char): string
  {
    if |fields| == 0 then ""
    else if |fields| == 1 then fields[0]
    else fields[0] + [sep] + Join(fields[1..], sep)
  }

  /** Splitting what was joined gives the fields back, provided no field holds the separator. */
  lemma {:induction false} SplitJoin(fields: seq<string>, sep: char)
    requires |fields| >= 1
    requires forall i :: 0 <= i < |fields| ==> sep !in fields[i]
    ensures Split(Join(fields, sep), sep) == fields
  {
    if |fields| == 1 {
      SplitNoSeparator(fields[0], sep);
    } else {
      var tail := Join(fields[1..], sep);
      SplitJoin(fields[1..], sep);
      SplitAfterField(fields[0], tail, sep);
      assert Join(fields, sep) == fields[0] + ([sep] + tail);
    }
  }

  /** A text without the separator is one field. */
  lemma {:induction false} SplitNoSeparator(s: string, sep: char)
    requires sep !in s
    ensures Split(s, sep) == [s]
  {
    if |s| > 0 {
      SplitNoSeparator(s[1..], sep);
      assert [s[0]] + s[1..] == s;
    }
  }

  /** A separator-free prefix followed by a separator becomes the first field on its own. */
  lemma {:induction false} SplitAfterField(a: string, tail: string, sep: char)
    requires sep !in a
    ensures Split(a + ([sep] + tail), sep) == [a] + Split(tail, sep)
  {
    var s := a + ([sep] + tail);
    if |a| == 0 {
      assert s == [sep] + tail;
      assert s[1..] == tail;
    } else {
      assert s[1..] == a[1..] + ([sep] + tail);
      SplitAfterField(a[1..], tail, sep);
      assert [a[0]] + a[1..] == a;
    }
  }

  /** Splitting two texts joined by a separator splits each of them. */
  lemma {:induction false} SplitConcat(a: string, b: string, sep: char)
    ensures Split(a + ([sep] + b), sep) == Split(a, sep) + Split(b, sep)
  {
    var s := a + ([sep] + b);
    if |a| == 0 {
      assert s == [sep] + b;
      assert s[1..] == b;
    } else {
      assert s[0] == a[0];
      assert s[1..] == a[1..] + ([sep] + b);
      SplitConcat(a[1..], b, sep);
      var fa := Split(a[1..], sep);
      var r := fa + Split(b, sep);
      if a[0] != sep {
        assert r[0] == fa[0];
        assert r[1..] == fa[1..] + Split(b, sep);
      }
    }
  }

  /** Joining the fields of a split gives the text back. */
  lemma {:induction false} JoinSplit(s: string, sep: char)
    ensures Join(Split(s, sep), sep) == s
  {
    if |s| > 0 {
      JoinSplit(s[1..], sep);
      var rest := Split(s[1..], sep);
      if s[0] == sep {
        assert Split(s, sep) == [""] + rest;
        assert s == [sep] + s[1..];
      } else {
        var head := [s[0]] + rest[0];
        if |rest| == 1 {
          assert Split(s, sep) == [head];
        } else {
          assert Split(s, sep)[1..] == rest[1..];
          assert Join(rest, sep) == rest[0] + [sep] + Join(rest[1..], sep);
        }
      }
    }
  }

  lemma {:induction false} CountConcat(a: string, b: string, c: char)
    ensures Count(a + b, c) == Count(a, c) + Count(b, c)
  {
    if |a| > 0 {
      assert (a + b)[0] == a[0];
      assert (a + b)[1..] == a[1..] + b;
      CountConcat(a[1..], b, c);
    } else {
      assert a + b == b;
    }
  }

  /** A text holds `c` exactly when its count of `c` is positive. */
  lemma {:induction false} CountPositive(s: string, c: char)
    ensures Count(s, c) > 0 <==> c in s
  {
    if |s| > 0 {
      CountPositive(s[1..], c);
      assert s == [s[0]] + s[1..];
    }
  }

  /** Occurrences of `c` inside the fields themselves. */
  function CountInFields(fields: seq<string>, c: char): nat
  {
    if |fields| == 0 then 0 else Count(fields[0], c) + CountInFields(fields[1..], c)
  }

  lemma {:induction false} CountInFieldsZero(fields: seq<string>, c: char)
    ensures CountInFields(fields, c) == 0 <==> forall i :: 0 <= i < |fields| ==> c !in fields[i]
  {
    if |fields| > 0 {
      CountInFieldsZero(fields[1..], c);
      CountPositive(fields[0], c);
      assert forall i :: 1 <= i < |fields| ==> fields[i] == fields[1..][i - 1];
    }
  }

  /** A join of fields splits back into as many fields exactly when no field holds the
      separator. */
  lemma JoinFieldCount(fields: seq<string>, sep: char)
    requires |fields| >= 1
    ensures |Split(Join(fields, sep), sep)| == |fields| <==> forall i :: 0 <= i < |fields| ==> sep !in fields[i]
  {
    JoinCount(fields, sep);
    CountInFieldsZero(fields, sep);
  }

  /** A character that is neither the separator nor inside any field is not in the join. */
  lemma {:induction false} JoinAvoids(fields: seq<string>, sep: char, c: char)
    requires c != sep
    requires forall i :: 0 <= i < |fields| ==> c !in fields[i]
    ensures c !in Join(fields, sep)
  {
    if |fields| > 1 {
      JoinAvoids(fields[1..], sep, c);
      assert Join(fields, sep) == fields[0] + [sep] + Join(fields[1..], sep);
    }
  }

  /** Joining n fields adds n - 1 separators to those already inside the fields. */
  lemma {:induction false} JoinCount(fields: seq<string>, sep: char)
    requires |fields| >= 1
    ensures Count(Join(fields, sep), sep) == |fields| - 1 + CountInFields(fields, sep)
  {
    if |fields| > 1 {
      JoinCount(fields[1..], sep);
      CountConcat(fields[0] + [sep], Join(fields[1..], sep), sep);
      CountConcat(fields[0], [sep], sep);
      assert Count([sep], sep) == 1;
    }
  }

  predicate IsDigit(c: char)
  {
    '0' <= c <= '9'
  }

  /** One or more ASCII decimal digits: JavaScript's `\d+`. */
  predicate IsDigitGroup(t: string)
  {
    |t| > 0 && forall i :: 0 <= i < |t| ==> IsDigit(t[i])
  }

  function DigitValue(c: char): (d: nat)
    requires IsDigit(c)
    ensures d < 10
  {
    c as int - '0' as int
  }

  function DigitChar(d: nat): (c: char)
    requires d < 10
    ensures IsDigit(c) && DigitValue(c) == d
  {
    ('0' as int + d) as char
  }

  /** The number a string of decimal digits denotes (leading zeros allowed). */
  function DecimalValue(t: string): nat
    requires forall i :: 0 <= i < |t| ==> IsDigit(t[i])
  {
    if |t| == 0 then 0 else 10 * DecimalValue(t[..|t| - 1]) + DigitValue(t[|t| - 1])
  }

  /** The shortest decimal text of `n`. */
  function Decimal(n: nat): (t: string)
    ensures IsDigitGroup(t)
  {
    if n < 10 then [DigitChar(n)] else Decimal(n / 10) + [DigitChar(n % 10)]
  }

  /** Reading back the decimal text of a number gives the number. */
  lemma {:induction false} DecimalRoundTrip(n: nat)
    ensures DecimalValue(Decimal(n)) == n
  {
    if n >= 10 {
      var t := Decimal(n);
      assert t[..|t| - 1] == Decimal(n / 10);
      DecimalRoundTrip(n / 10);
    }
  }

  /** The characters JavaScript's `String.prototype.trim` removes: the WhiteSpace
      and LineTerminator productions of ECMAScript (section 12.2 and 12.3 of ECMA-262). */
  predicate IsJsSpace(c: char)
  {
    || c == '\U{0009}' || c == '\U{000B}' || c == '\U{000C}' || c == ' '
    || c == '\U{00A0}' || c == '\U{FEFF}' || c == '\U{1680}'
    || ('\U{2000}' <= c <= '\U{200A}') || c == '\U{202F}' || c == '\U{205F}' || c == '\U{3000}'
    || c == '\U{000A}' || c == '\U{000D}' || c == '\U{2028}' || c == '\U{2029}'
  }

  /** Number of leading characters `trim` drops. */
  function LeadingSpace(s: string): (n: nat)
    ensures n <= |s|
    ensures forall k :: 0 <= k < n ==> IsJsSpace(s[k])
    ensures n < |s| ==> !IsJsSpace(s[n])
  {
    if |s| == 0 || !IsJsSpace(s[0]) then 0 else 1 + LeadingSpace(s[1..])
  }

  /** Length of `s` once trailing `trim` characters are dropped. */
  function TrailingEnd(s: string): (e: nat)
    ensures e <= |s|
    ensures forall k :: e <= k < |s| ==> IsJsSpace(s[k])
    ensures e > 0 ==> !IsJsSpace(s[e - 1])
  {
    if |s| == 0 || !IsJsSpace(s[|s| - 1]) then |s| else TrailingEnd(s[..|s| - 1])
  }

  /** JavaScript's `String.prototype.trim`: the longest slice of `s` that neither starts
      nor ends with a white-space or line-terminator character, with only such
      characters removed on either side. */
  function Trim(s: string): (t: string)
    ensures |t| > 0 ==> !IsJsSpace(t[0]) && !IsJsSpace(t[|t| - 1])
    ensures (forall k :: 0 <= k < |s| ==> !IsJsSpace(s[k])) ==> t == s
    ensures (forall k :: 0 <= k < |s| ==> IsJsSpace(s[k])) ==> t == ""
  {
    var i := LeadingSpace(s);
    var e := TrailingEnd(s[i..]);
    s[i..][..e]
  }

  /** `trim` only removes characters from the ends: the result is a slice of `s`
      surrounded by white space on both sides. */
  lemma TrimIsSlice(s: string)
    ensures var i := LeadingSpace(s);
            var t := Trim(s);
            && i + |t| <= |s|
            && s[i..i + |t|] == t
            && (forall k :: 0 <= k < i ==> IsJsSpace(s[k]))
            && (forall k :: i + |t| <= k < |s| ==> IsJsSpace(s[k]))
  {
    var i := LeadingSpace(s);
    var e := TrailingEnd(s[i..]);
    forall k | i + e <= k < |s|
      ensures IsJsSpace(s[k])
    {
      assert s[k] == s[i..][k - i];
    }
  }

  lemma {:induction false} LeadingSpaceSkip(pre: string, rest: string)
    requires forall k :: 0 <= k < |pre| ==> IsJsSpace(pre[k])
    requires |rest| > 0 && !IsJsSpace(rest[0])
    ensures LeadingSpace(pre + rest) == |pre|
  {
    if |pre| > 0 {
      assert (pre + rest)[0] == pre[0];
      assert (pre + rest)[1..] == pre[1..] + rest;
      LeadingSpaceSkip(pre[1..], rest);
    } else {
      assert pre + rest == rest;
    }
  }

  lemma {:induction false} TrailingEndSkip(rest: string, post: string)
    requires forall k :: 0 <= k < |post| ==> IsJsSpace(post[k])
    requires |rest| > 0 && !IsJsSpace(rest[|rest| - 1])
    ensures TrailingEnd(rest + post) == |rest|
  {
    var s := rest + post;
    if |post| > 0 {
      assert s[|s| - 1] == post[|post| - 1];
      assert s[..|s| - 1] == rest + post[..|post| - 1];
      TrailingEndSkip(rest, post[..|post| - 1]);
    } else {
      assert s == rest;
    }
  }

  /** `trim` strips exactly the white space around a text that neither starts nor
      ends with white space. */
  lemma TrimPadded(pre: string, core: string, post: string)
    requires forall k :: 0 <= k < |pre| ==> IsJsSpace(pre[k])
    requires forall k :: 0 <= k < |post| ==> IsJsSpace(post[k])
    requires |core| > 0 && !IsJsSpace(core[0]) && !IsJsSpace(core[|core| - 1])
    ensures Trim(pre + core + post) == core
  {
    var s := pre + core + post;
    assert s == pre + (core + post);
    LeadingSpaceSkip(pre, core + post);
    assert s[|pre|..] == core + post;
    TrailingEndSkip(core, post);
    assert (core + post)[..|core|] == core;
  }
}

=== FILE: utf8.dfy ===
/** Bytes and the UTF-8 encoding that connects Go strings, ledger values and the
    JavaScript Buffer decoders. Characters are Unicode scalar values. */
module Utf8 {
  import opened Wrappers

  newtype byte = x: int | 0 <= x < 256

  predicate IsAscii(c: char)
  {
    (c as int) < 0x80
  }

  predicate AllAscii(s: string)
  {
    forall i :: 0 <= i < |s| ==> IsAscii(s[i])
  }

  lemma AllAsciiConcat(a: string, b: string)
    requires AllAscii(a) && AllAscii(b)
    ensures AllAscii(a + b)
  {
    assert forall i :: |a| <= i < |a + b| ==> (a + b)[i] == b[i - |a|];
  }

  /** The UTF-8 encoding of one scalar value: one byte below U+0080, then two, three
      or four. */
  function EncodeChar(c: char): (bs: seq<byte>)
    ensures 1 <= |bs| <= 4
    ensures |bs| == 1 <==> IsAscii(c)
    ensures IsAscii(c) ==> bs[0] as int == c as int
    ensures !IsAscii(c) ==> bs[0] >= 0xC2
  {
    var n := c as int;
    if n < 0x80 then [n as byte]
    else if n < 0x800 then [(0xC0 + n / 64) as byte, (0x80 + n % 64) as byte]
    else if n < 0x10000 then [(0xE0 + n / 4096) as byte, (0x80 + (n / 64) % 64) as byte, (0x80 + n % 64) as byte]
    else [(0xF0 + n / 262144) as byte, (0x80 + (n / 4096) % 64) as byte, (0x80 + (n / 64) % 64) as byte, (0x80 + n % 64) as byte]
  }

  /** The UTF-8 bytes of a text, as `[]byte(s)` in Go and `Buffer.from(s)` in JavaScript. */
  function Encode(s: string): (bs: seq<byte>)
    ensures |bs| >= |s|
  {
    if |s| == 0 then [] else EncodeChar(s[0]) + Encode(s[1..])
  }

  predicate IsContinuation(b: byte)
  {
    0x80 <= b < 0xC0
  }

  predicate IsScalar(v: int)
  {
    (0 <= v < 0xD800) || (0xE000 <= v < 0x11_0000)
  }

  /** The scalar value at the start of `bs` and the number of bytes it takes, for a
      well-formed sequence; None for a malformed one (a stray continuation byte, an
      overlong form, a surrogate, a value past U+10FFFF, a truncated sequence). */
  function DecodeChar(bs: seq<byte>): (r: Option<(char, nat)>)
    requires |bs| > 0
    ensures r.Some? ==> 1 <= r.value.1 <= 4 && r.value.1 <= |bs|
  {
    var b0 := bs[0] as int;
    if b0 < 0x80 then Some((b0 as char, 1))
    else if 0xC2 <= b0 < 0xE0 then
      if |bs| < 2 || !IsContinuation(bs[1]) then None
      else Some((((b0 - 0xC0) * 64 + (bs[1] as int - 0x80)) as char, 2))
    else if 0xE0 <= b0 < 0xF0 then
      if |bs| < 3 || !IsContinuation(bs[1]) || !IsContinuation(bs[2]) then None
      else
        var v := (b0 - 0xE0) * 4096 + (bs[1] as int - 0x80) * 64 + (bs[2] as int - 0x80);
        if 0x800 <= v && IsScalar(v) then Some((v as char, 3)) else None
    else if 0xF0 <= b0 < 0xF5 then
      if |bs| < 4 || !IsContinuation(bs[1]) || !IsContinuation(bs[2]) || !IsContinuation(bs[3]) then None
      else
        var v := (b0 - 0xF0) * 262144 + (bs[1] as int - 0x80) * 4096 + (bs[2] as int - 0x80) * 64 + (bs[3] as int - 0x80);
        if 0x1_0000 <= v && IsScalar(v) then Some((v as char, 4)) else None
    else None
  }

  /** Strict UTF-8 decoding: the text the bytes encode, or None if they are malformed. */
  function Decode(bs: seq<byte>): (r: Option<string>)
    ensures r.Some? ==> |r.value| <= |bs|
    decreases |bs|
  {
    if |bs| == 0 then Some("")
    else match DecodeChar(bs)
      case None => None
      case Some((c, n)) =>
        match Decode(bs[n..])
        case None => None
        case Some(t) => Some([c] + t)
  }

  /** One character at a time, with every byte read as the code unit of the same value
      (what `String.fromCharCode` does byte by byte). */
  function Latin1(bs: seq<byte>): (s: string)
    ensures |s| == |bs|
    ensures forall i :: 0 <= i < |bs| ==> s[i] as int == bs[i] as int
  {
    seq(|bs|, i requires 0 <= i < |bs| => bs[i] as int as char)
  }

  lemma DecodeEncodeChar2(c: char, rest: seq<byte>)
    requires 0x80 <= c as int < 0x800
    ensures DecodeChar(EncodeChar(c) + rest) == Some((c, 2))
  {
  }

  lemma DecodeEncodeChar3(c: char, rest: seq<byte>)
    requires 0x800 <= c as int < 0x1_0000
    ensures DecodeChar(EncodeChar(c) + rest) == Some((c, 3))
  {
    var n := c as int;
    var bs := EncodeChar(c) + rest;
    assert bs[0] as int - 0xE0 == n / 4096;
    assert bs[1] as int - 0x80 == (n / 64) % 64;
    assert bs[2] as int - 0x80 == n % 64;
    assert (n / 4096) * 4096 + ((n / 64) % 64) * 64 + n % 64 == n by {
      assert n / 64 == (n / 4096) * 64 + (n / 64) % 64;
      assert n == (n / 64) * 64 + n % 64;
    }
  }

  lemma DecodeEncodeChar4(c: char, rest: seq<byte>)
    requires 0x1_0000 <= c as int
    ensures DecodeChar(EncodeChar(c) + rest) == Some((c, 4))
  {
    var n := c as int;
    var bs := EncodeChar(c) + rest;
    assert n < 0x11_0000;
    assert bs[0] as int - 0xF0 == n / 262144;
    assert bs[1] as int - 0x80 == (n / 4096) % 64;
    assert bs[2] as int - 0x80 == (n / 64) % 64;
    assert bs[3] as int - 0x80 == n % 64;
    FourDigits64(n);
  }

  /** A value below U+110000 written in base 64 with four digits. */
  lemma FourDigits64(n: int)
    requires 0 <= n
    ensures (n / 262144) * 262144 + ((n / 4096) % 64) * 4096 + ((n / 64) % 64) * 64 + n % 64 == n
  {
    assert n / 4096 == (n / 262144) * 64 + (n / 4096) % 64;
    assert n / 64 == (n / 4096) * 64 + (n / 64) % 64;
    assert n == (n / 64) * 64 + n % 64;
  }

  /** Decoding reads back the character an encoding starts with, and its length. */
  lemma DecodeEncodeChar(c: char, rest: seq<byte>)
    ensures DecodeChar(EncodeChar(c) + rest) == Some((c, |EncodeChar(c)|))
  {
    var n := c as int;
    if n < 0x80 {
    } else if n < 0x800 {
      DecodeEncodeChar2(c, rest);
    } else if n < 0x1_0000 {
      DecodeEncodeChar3(c, rest);
    } else {
      DecodeEncodeChar4(c, rest);
    }
  }

  /** Round trip: decoding the UTF-8 encoding of a text gives the text back. */
  lemma {:induction false} DecodeEncode(s: string)
    ensures Decode(Encode(s)) == Some(s)
  {
    if |s| > 0 {
      var head := EncodeChar(s[0]);
      var tail := Encode(s[1..]);
      DecodeEncodeChar(s[0], tail);
      assert (head + tail)[|head|..] == tail;
      DecodeEncode(s[1..]);
      assert [s[0]] + s[1..] == s;
    }
  }

  /** An ASCII text is encoded one byte per character, each byte its character's code. */
  lemma {:induction false} EncodeAscii(s: string)
    requires AllAscii(s)
    ensures |Encode(s)| == |s|
    ensures forall i :: 0 <= i < |s| ==> Encode(s)[i] as int == s[i] as int
  {
    if |s| > 0 {
      EncodeAscii(s[1..]);
      assert forall i :: 1 <= i < |s| ==> Encode(s)[i] == Encode(s[1..])[i - 1];
    }
  }

  /** The encoding is one byte longer than the text for no character beyond ASCII. */
  lemma {:induction false} EncodeLengthAscii(s: string)
    ensures |Encode(s)| == |s| <==> AllAscii(s)
  {
    if |s| > 0 {
      EncodeLengthAscii(s[1..]);
      assert forall i :: 1 <= i < |s| ==> s[i] == s[1..][i - 1];
    }
  }

  /** Reading UTF-8 bytes one byte per character gives the text back exactly when the
      text is ASCII. */
  lemma Latin1OfEncode(s: string)
    ensures Latin1(Encode(s)) == s <==> AllAscii(s)
  {
    EncodeLengthAscii(s);
    if AllAscii(s) {
      EncodeAscii(s);
      assert forall i :: 0 <= i < |s| ==> Latin1(Encode(s))[i] == s[i];
    }
  }
}

=== FILE: wrappers.dfy ===
/** Failure-compatible wrappers shared by the whole model. */
module Wrappers {

  /** A value that may be missing, as JavaScript's `undefined` or Go's nil. */
  datatype Option<+T> = None | Some(value: T) {

    predicate IsFailure() {
      None?
    }

    function PropagateFailure<U>(): Option<U>
      requires None?
    {
      None
    }

    function Extract(): T
      requires Some?
    {
      value
    }

    function GetOr(default: T): T {
      match this
      case Some(v) => v
      case None => default
    }
  }

  /** The outcome of an operation that either produces a value or reports an error. */
  datatype Result<+R, +E> = Success(value: R) | Failure(error: E) {

    predicate IsFailure() {
      Failure?
    }

    function PropagateFailure<U>(): Result<U, E>
      requires Failure?
    {
      Failure(error)
    }

    function Extract(): R
      requires Success?
    {
      value
    }
  }
}
